=== FILE: README.md ===
# HTTP job type: a Dafny model

This project models the decision logic of the HTTP job type `HttpJob`. The
job sends one HTTP request built from its flat property namespace and judges
the response with comma-separated JSONPath expressions. When that call passes
and a `status.url` is configured, the job polls a status endpoint until a
fail or success expression matches, a run of consecutive errors spends the
retry budget, or the job is cancelled.

The network, the JSONPath engine and the passage of time are inputs:

- the primary call's outcome is an `Executor.Attempt`: a transport fault, or
  a status code with an optional body;
- JSONPath extraction is a function parameter (`Evaluation.PathOracle`). It
  returns one of error, null, a collection or map of some size, or a scalar;
- the poll loop consumes a sequence of `Poller.Tick`s. Each tick is one loop
  iteration: either the cancel flag was already set at the loop head, or the
  iteration made an attempt with the given outcome.

Modules, one per file:

| file | module | what it holds |
|---|---|---|
| wrappers.dfy | `Wrappers` | `Option`, `Result` |
| strings.dfy | `Strings` | `indexOf`, `split` with limit 0, `trim` |
| config.dfy | `Config` | property keys, `Props`, `ConfigError` |
| headers.dfy | `Headers` | parsing the CRLF header block |
| requests.dfy | `Requests` | method selection and the request descriptor |
| timeouts.dfy | `Timeouts` | timeout fallback per phase |
| evaluation.dfy | `Evaluation` | single and comma-separated expression matching |
| executor.dfy | `Executor` | status classes 4 and 5, the primary verdict |
| poller.dfy | `Poller` | the status poll: the recursive reference `PollFrom`, the loop `Poll`, `CheckStatus` |
| job.dfy | `Job` | `run` end to end |
| scenarios.dfy | `Scenarios` | concrete runs |

## Behaviour as written

The model follows the code as written, also where it departs from what its
own names and messages suggest:

- The constant `SOCKET_TIMEOUT` is declared as `"connectionTimeout"`, not
  `"socketTimeout"`. A property named `socketTimeout` is therefore never
  read, and the socket timeout always equals the connect timeout.
- The status phase needs `status.successEval` to be present. Its lookup has
  no default, so a missing value is an error. It also needs
  `status.failEval` to be non-empty. Both are configuration errors, checked
  in that order before the status request is built. The source's message
  for the second one names `successEval`; the model has its own constructor
  for it (`StatusFailEvalEmpty`).
- A cancelled poll makes `checkStatus` return false. `run` then fails the
  job exactly as it does after a fail match or a spent retry budget. The
  poll itself records that it was cancelled (`Poller.Cancelled`), but the
  job outcome does not.
- The single-entry rule counts the entries that `String.split(",")`
  returns, not the non-blank ones. A comma-free list is tested as it is,
  even when blank. In the poll, an empty `status.successEval` is handed to
  JSONPath rather than treated as "no constraint". `","` splits into no
  entries, so it matches nothing.
- Splitting removes trailing empty entries but keeps leading and inner ones.
  Those are then skipped as blank.
  The two ends are therefore not symmetric. With B blank, `,B` keeps two
  blank entries and matches nothing, while `B,` loses its trailing empty
  piece and keeps B alone, which is tested as it is
  (`Scenarios.EmptyFirstExpressionDoesNotCommute`).
- The test job configures `status.url` and `status.successEval` but no
  `status.failEval`. Once its primary call passes, the status phase rejects
  it as misconfigured, so that job cannot succeed
  (`Scenarios.TestJobNeverSucceeds`).
- `Thread.sleep` sits inside a `try` that catches only interruption, so a
  negative `status.interval` throws out of `checkStatus` at the first
  iteration that gets past the cancel check. The job fails before any status
  attempt counts (`NegativeInterval`).

## Model

| member | source | states |
|---|---|---|
| `Strings.IndexOf` | az-http-jobtype-plugin/src/main/java/azkaban/jobtype/http/HttpJob.java:275 | the index returned is an occurrence and no earlier index is one; `None` (Java's -1) exactly when there is no occurrence |
| `Strings.DropTrailingEmpty` | az-http-jobtype-plugin/src/main/java/azkaban/jobtype/http/HttpJob.java:272 | the result is a prefix of the pieces that does not end in an empty string, and every piece it drops is empty |
| `Strings.Split` | az-http-jobtype-plugin/src/main/java/azkaban/jobtype/http/HttpJob.java:272 | `split` with limit 0: the input itself when the delimiter never occurs, otherwise the pieces between occurrences with the trailing empty ones, and only those, removed |
| `Strings.JoinPieces` | az-http-jobtype-plugin/src/main/java/azkaban/jobtype/http/HttpJob.java:272 | joining the pieces back with the delimiter restores the input exactly |
| `Strings.SplitJoin` | az-http-jobtype-plugin/src/main/java/azkaban/jobtype/http/HttpJob.java:272 | splitting a join of non-empty-ended pieces without the delimiter's first character returns those pieces |
| `Strings.Trim` | az-http-jobtype-plugin/src/main/java/azkaban/jobtype/http/HttpJob.java:140 | `trim()` is the slice of the input that starts after its leading characters up to U+0020 and leaves only such characters after it, and it is empty exactly when every character is at most U+0020 |
| `Headers.ParseSegment` | az-http-jobtype-plugin/src/main/java/azkaban/jobtype/http/HttpJob.java:275-279 | no header exactly when the segment has no colon; otherwise the name has no colon and name, `:` and value concatenate back to the segment |
| `Headers.ParseSegments` | az-http-jobtype-plugin/src/main/java/azkaban/jobtype/http/HttpJob.java:273-281 | at most one header per segment, and no header name contains a colon |
| `Headers.ParseHeaders` | az-http-jobtype-plugin/src/main/java/azkaban/jobtype/http/HttpJob.java:267-282 | `null` (`None`) exactly for an empty block; otherwise no more headers than CRLF segments and no colon in any name |
| `Headers.ParsedHeadersAreColonSegments` | az-http-jobtype-plugin/src/main/java/azkaban/jobtype/http/HttpJob.java:272-281 | the headers written back as lines are exactly the segments that contain a colon, unaltered and in order |
| `Headers.ColonSegmentsInOrder` | az-http-jobtype-plugin/src/main/java/azkaban/jobtype/http/HttpJob.java:274-280 | the kept segments are a subsequence of all segments, so header order follows segment order |
| `Headers.ParseLine` | az-http-jobtype-plugin/src/main/java/azkaban/jobtype/http/HttpJob.java:275-278 | the line of a header whose name has no colon parses back to that same header |
| `Headers.ParseLines` | az-http-jobtype-plugin/src/main/java/azkaban/jobtype/http/HttpJob.java:274-281 | lines `name:value` whose names lack a colon parse back to the same headers, values with further colons included |
| `Headers.ParseRendered` | az-http-jobtype-plugin/src/main/java/azkaban/jobtype/http/HttpJob.java:267-282 | a non-empty header list whose names contain no colon and whose names and values contain no CR, written as a CRLF block, parses back to itself |
| `Headers.OneLine` | az-http-jobtype-plugin/src/main/java/azkaban/jobtype/http/HttpJob.java:275-278 | a one-line block is one header, split at the first colon, value untrimmed |
| `Requests.ParseMethod` | az-http-jobtype-plugin/src/main/java/azkaban/jobtype/http/HttpJob.java:236-252 | only the exact strings `GET` and `POST` are accepted; anything else is an unsupported-method error naming the value |
| `Requests.BuildRequest` | az-http-jobtype-plugin/src/main/java/azkaban/jobtype/http/HttpJob.java:230-260 | a missing URL is an error checked first; the method defaults to GET and must be GET or POST; a body is attached iff POST with a non-empty body; headers are the colon segments of the block, none for an empty block |
| `Requests.HeaderNamesHaveNoColon` | az-http-jobtype-plugin/src/main/java/azkaban/jobtype/http/HttpJob.java:275-278 | no header of a built request has a colon in its name, so each was cut at the first colon of its segment |
| `Timeouts.Resolve` | az-http-jobtype-plugin/src/main/java/azkaban/jobtype/http/HttpJob.java:87-90 | the socket timeout always equals the connect timeout |
| `Timeouts.Defaults` | az-http-jobtype-plugin/src/main/java/azkaban/jobtype/http/HttpJob.java:179-182 | with nothing configured every timeout is 3000 ms for the primary call and 30000 ms for the status call |
| `Timeouts.GenericFallback` | az-http-jobtype-plugin/src/main/java/azkaban/jobtype/http/HttpJob.java:87-90 | with no specific keys, the generic `timeout` sets all three timeouts |
| `Timeouts.RequestTimeoutOverrides` | az-http-jobtype-plugin/src/main/java/azkaban/jobtype/http/HttpJob.java:88 | a request timeout changes the connection-request timeout and nothing else |
| `Timeouts.ConnectionTimeoutSetsSocket` | az-http-jobtype-plugin/src/main/java/azkaban/jobtype/http/HttpJob.java:89-90 | a connection timeout sets both the connect and the socket timeout |
| `Timeouts.SocketTimeoutSpellingIgnored` | az-http-jobtype-plugin/src/main/java/azkaban/jobtype/http/HttpJob.java:63 | a property spelled `socketTimeout` never changes any timeout |
| `Timeouts.StatusKeysLeavePrimaryAlone` | az-http-jobtype-plugin/src/main/java/azkaban/jobtype/http/HttpJob.java:179-182 | no `status.`-prefixed key changes the primary call's timeouts |
| `Evaluation.ContainsEval` | az-http-jobtype-plugin/src/main/java/azkaban/jobtype/http/HttpJob.java:150-168 | an evaluation error or null is a non-match, never an error; a collection or map matches iff non-empty; any other value matches |
| `Evaluation.AnyNonBlankMatch` | az-http-jobtype-plugin/src/main/java/azkaban/jobtype/http/HttpJob.java:139-146 | true iff some entry that is not blank matches |
| `Evaluation.ContainsEvals` | az-http-jobtype-plugin/src/main/java/azkaban/jobtype/http/HttpJob.java:135-148 | exactly one entry is tested directly, blank or not; otherwise true iff some non-blank entry matches |
| `Evaluation.SingleExpression` | az-http-jobtype-plugin/src/main/java/azkaban/jobtype/http/HttpJob.java:135-137 | a comma-free list matches iff that one expression matches, even when blank |
| `Evaluation.TwoExpressions` | az-http-jobtype-plugin/src/main/java/azkaban/jobtype/http/HttpJob.java:139-146 | for comma-free A and a comma-free, non-empty B, `A,B` matches iff a non-blank A matches or a non-blank B matches |
| `Evaluation.TwoExpressionsCommute` | az-http-jobtype-plugin/src/main/java/azkaban/jobtype/http/HttpJob.java:139-146 | for comma-free, non-empty A and B, `A,B` and `B,A` give the same verdict |
| `Scenarios.EmptyFirstExpressionDoesNotCommute` | az-http-jobtype-plugin/src/main/java/azkaban/jobtype/http/HttpJob.java:120-121 | `, ` matches nothing for an engine under which every expression matches, while ` ,` matches: `,B` and `B,` disagree for a blank B |
| `Evaluation.OrderIndependent` | az-http-jobtype-plugin/src/main/java/azkaban/jobtype/http/HttpJob.java:139-146 | with more than one entry, any reordering of the entries gives the same verdict |
| `Evaluation.LoneCommaMatchesNothing` | az-http-jobtype-plugin/src/main/java/azkaban/jobtype/http/HttpJob.java:120-121 | the list `,` splits into no entries and never matches |
| `Evaluation.Matches` | az-http-jobtype-plugin/src/main/java/azkaban/jobtype/http/HttpJob.java:120-121 | `isContainsEvals(content, list.split(","))`: a list that splits into one entry tests that entry directly, blank or not; otherwise it matches iff some non-blank piece between commas matches, the trailing empty pieces `split` drops included or not |
| `Evaluation.DroppedPiecesSelectNothing` | az-http-jobtype-plugin/src/main/java/azkaban/jobtype/http/HttpJob.java:120-121 | some entry `split` keeps is a non-blank match exactly when some piece between commas is, because the pieces it drops are empty |
| `Executor.IsErrorStatus` | az-http-jobtype-plugin/src/main/java/azkaban/jobtype/http/HttpJob.java:114-116 | status class 4 or 5 under Java's truncating division is exactly the range [400, 600) |
| `Executor.Verdict` | az-http-jobtype-plugin/src/main/java/azkaban/jobtype/http/HttpJob.java:117-121 | a configured fail expression that matches vetoes; a configured success expression must match; both empty means success |
| `Executor.VerdictOnTwoSuccessExpressions` | az-http-jobtype-plugin/src/main/java/azkaban/jobtype/http/HttpJob.java:118-121 | with `successEval = A,B` and no fail expression, the verdict is: A matches or B matches |
| `Poller.PollFrom` | az-http-jobtype-plugin/src/main/java/azkaban/jobtype/http/HttpJob.java:195-227 | each iteration adds at most one attempt: the count ends between its start and start plus the iterations given |
| `Poller.Poll` | az-http-jobtype-plugin/src/main/java/azkaban/jobtype/http/HttpJob.java:191-227 | the `while` loop with early returns computes the same run as the recursive `PollFrom`, within the iterations given |
| `Poller.CheckStatus` | az-http-jobtype-plugin/src/main/java/azkaban/jobtype/http/HttpJob.java:170-227 | a missing `status.successEval`, then an empty `status.failEval`, then a bad status request are errors before any attempt, each reported ahead of the later checks, and a negative `status.interval` is an error at the first attempt only when the status request was built; otherwise the run is explained iteration by iteration under the configured expressions and `status.max-retries` budget, with the error count equal to the trailing error run, and no attempt made once that run has reached the budget |
| `Poller.PollAppend` | az-http-jobtype-plugin/src/main/java/azkaban/jobtype/http/HttpJob.java:195-227 | once polling has stopped later iterations are never looked at; otherwise it continues from the same counters |
| `Poller.CancelEndsPolling` | az-http-jobtype-plugin/src/main/java/azkaban/jobtype/http/HttpJob.java:195 | a cancel seen at the loop head ends polling as cancelled with the counters unchanged, whatever follows |
| `Poller.PollDecision` | az-http-jobtype-plugin/src/main/java/azkaban/jobtype/http/HttpJob.java:206-216 | every attempt before the last was inconclusive; the last is an error, a fail match, or a success match without a fail match (fail checked first); cancellation only at a set flag |
| `Poller.ErrorCountIsErrorRun` | az-http-jobtype-plugin/src/main/java/azkaban/jobtype/http/HttpJob.java:217-222 | the error count equals the trailing run of consecutive errors, reaches the budget exactly when polling gives up, and is below it otherwise |
| `Poller.RetriesExhaustedExactly` | az-http-jobtype-plugin/src/main/java/azkaban/jobtype/http/HttpJob.java:218-222 | from the start, polling gives up exactly when `maxRetries + 1` (at least one) consecutive errors have been seen |
| `Poller.ErrorsOnly` | az-http-jobtype-plugin/src/main/java/azkaban/jobtype/http/HttpJob.java:218-222 | a run of errors shorter than the budget keeps polling; reaching it gives up on exactly that attempt |
| `Poller.NoAttemptAfterBudgetSpent` | az-http-jobtype-plugin/src/main/java/azkaban/jobtype/http/HttpJob.java:218-222 | every attempt after the first is made with the trailing error run of the iterations before it still below `maxRetries + 1` |
| `Poller.SleepPrecedesFirstAttempt` | az-http-jobtype-plugin/src/main/java/azkaban/jobtype/http/HttpJob.java:195-201 | with a negative `status.interval`, the sleep throws exactly when the loop, left to run, would have made at least one attempt |
| `Poller.StatusPollConfig` | az-http-jobtype-plugin/src/main/java/azkaban/jobtype/http/HttpJob.java:172-174 | the poll uses `status.max-retries` (default 3), `status.failEval` (default empty) and the required `status.successEval`, each read from its own key |
| `Job.Run` | az-http-jobtype-plugin/src/main/java/azkaban/jobtype/http/HttpJob.java:84-133 | a bad primary configuration or a transport fault fails the job; success needs a passing primary call; without `status.url` a passing call succeeds; the job is unresolved only while polling after every iteration given |
| `Job.UnsupportedMethodFailsBeforeSending` | az-http-jobtype-plugin/src/main/java/azkaban/jobtype/http/HttpJob.java:85-103 | a method other than GET or POST fails the job as misconfigured, independent of every network outcome |
| `Job.ErrorStatusFails` | az-http-jobtype-plugin/src/main/java/azkaban/jobtype/http/HttpJob.java:114-116 | a status in [400, 600) fails the job whatever the body |
| `Job.NoExpressionsSucceed` | az-http-jobtype-plugin/src/main/java/azkaban/jobtype/http/HttpJob.java:117-122 | with both expressions empty and no status URL, any status outside [400, 600) succeeds, body or not |
| `Job.PollsOnlyAfterPass` | az-http-jobtype-plugin/src/main/java/azkaban/jobtype/http/HttpJob.java:122-124 | unless the primary call passed and `status.url` is present, the poll's iterations never affect the outcome |
| `Job.PollDecidesJob` | az-http-jobtype-plugin/src/main/java/azkaban/jobtype/http/HttpJob.java:122-127 | once the primary call passed and the status phase is configured and not stopped by a negative interval, polling runs and the job succeeds iff the success expression decided it; fail match, spent budget and cancellation all fail it |
| `Job.EmptyStatusFailEvalFailsBeforePolling` | az-http-jobtype-plugin/src/main/java/azkaban/jobtype/http/HttpJob.java:173-177 | an empty `status.failEval` fails the job as misconfigured before any status attempt |
| `Job.NegativeIntervalFails` | az-http-jobtype-plugin/src/main/java/azkaban/jobtype/http/HttpJob.java:195-199 | a negative `status.interval` fails the job at the first status attempt whatever it would return, while a cancel seen first still fails it as a plain unsuccessful poll |
| `Scenarios.PollSucceedsAfterTwoFaults` | az-http-jobtype-plugin/src/main/java/azkaban/jobtype/http/HttpJob.java:195-227 | two transport faults then a matching body: success on the third attempt, error count 2 |
| `Scenarios.FailMatchWinsOnFirstAttempt` | az-http-jobtype-plugin/src/main/java/azkaban/jobtype/http/HttpJob.java:209-212 | a body both expressions select fails polling on attempt 1 |
| `Scenarios.FourFaultsExhaustDefaultBudget` | az-http-jobtype-plugin/src/main/java/azkaban/jobtype/http/HttpJob.java:170-222 | with `status.max-retries` unset, `checkStatus` keeps polling through three consecutive transport faults and gives up on the fourth |
| `Scenarios.PostRequestBuilds` | az-http-jobtype-plugin/src/test/java/azkaban/jobtype/http/HttpJobTest.java:15-18 | the test's url, method and body build a POST request carrying that body |
| `Scenarios.PostVerdict` | az-http-jobtype-plugin/src/main/java/azkaban/jobtype/http/HttpJob.java:117-121 | with no fail expression and the test's success filter, the body `{"code":1}` passes the primary verdict |
| `Scenarios.PostJobSucceeds` | az-http-jobtype-plugin/src/main/java/azkaban/jobtype/http/HttpJob.java:117-127 | a POST whose response the success expression selects, with no status URL, succeeds |
| `Scenarios.TestJobNeverSucceeds` | az-http-jobtype-plugin/src/test/java/azkaban/jobtype/http/HttpJobTest.java:14-25 | the test's whole configuration has a status URL and no `status.failEval`, so the job never succeeds, and fails as misconfigured whenever its primary call passes |
| `Scenarios.HostHeader` | az-http-jobtype-plugin/src/main/java/azkaban/jobtype/http/HttpJob.java:275-278 | `Host: localhost:8080` is the header `Host` with value ` localhost:8080` |

## Left out

- The HTTP transport is left out: client construction, `RequestConfig`, `execute`, reading the body as UTF-8, encoding the POST entity. An attempt's outcome is an input. The resolved timeouts are computed, but nothing consumes them.
- The JSONPath engine (fastjson) is a function parameter. Its results are reduced to error, null, sized collection or map, and scalar.
- The waiting `Thread.sleep` does is left out. A non-negative `status.interval` only paces the loop; a negative one is modelled as the error it raises.
- The `isCancel` field, `cancel()` and `isCanceled()` are not modelled as shared state. The flag's value at each loop head is part of the input.
- Logging and the elapsed-time message in `run`'s `finally` block are left out; they are output only.
- Requests.BuildRequest: does not check the URL. `new HttpPost(url)` and `new HttpGet(url)` throw for a string that is not a valid URI, which fails the job before the primary call, or before polling for `status.url`. The model accepts any URL string, because URI syntax is outside the job's own logic.
- Property storage and parsing are left out. Integer properties arrive already parsed, so a malformed number (`NumberFormatException`) is not modelled. Parent property sets are not modelled either. `Props` keeps the text and the parsed integers in two maps, and nothing forces them to agree; the job never reads the same key both ways.
- `Poller.PollFrom`: the attempt and error counters are unbounded integers. Java's 32-bit `int` would wrap after 2^31 iterations.
- A `null` header string cannot occur in the model. Strings are never null, and the only caller passes the default `""`, which the model treats like `null`.
- `azkaban/utils/StringUtils.java` is not part of this model. Its `isEmpty` is taken to mean null or length zero, without trimming.
- The constructors and the test file's live-endpoint tests are not modelled. Those tests assert nothing beyond not throwing.

=== FILE: config.dfy ===
/**
 * The job's flat property namespace and the keys it reads. Properties are
 * strings; the integer-valued ones are held already parsed.
 */
module Config {
  import opened Wrappers

  const UrlKey: string := "url"
  const MethodKey: string := "method"
  const HeadersKey: string := "headers"
  const BodyKey: string := "body"
  const TimeoutKey: string := "timeout"
  const RequestTimeoutKey: string := "requestTimeout"
  const ConnectionTimeoutKey: string := "connectionTimeout"
  /** The job type declares the socket-timeout key with the connection-timeout spelling. */
  const SocketTimeoutKey: string := "connectionTimeout"
  const SuccessEvalKey: string := "successEval"
  const FailEvalKey: string := "failEval"
  /** Prefix of the status-check phase's copy of every key above. */
  const StatusPrefix: string := "status."
  const StatusIntervalKey: string := "status.interval"
  const StatusMaxRetriesKey: string := "status.max-retries"

  /**
   * One job's properties: every value as text, and the parsed value of each
   * integer property. The job only ever reads `ints` at keys whose text is a
   * decimal integer, so the intended relation is that every key of `ints` is
   * a key of `strings` and `ints[k]` is what `strings[k]` parses to.
   */
  datatype Props = Props(strings: map<string, string>, ints: map<string, int>)

  /** Why the configuration is unusable; raised before the phase it belongs to sends anything. */
  datatype ConfigError =
    | MissingProperty(key: string)
    | UnsupportedMethod(name: string)
    | StatusFailEvalEmpty
    /** `Thread.sleep` rejects a negative `status.interval` when the first status attempt is due. */
    | NegativeInterval(interval: int)

  /** `getString(key, default)`. */
  function GetString(p: Props, key: string, default: string): string
  {
    if key in p.strings then p.strings[key] else default
  }

  /** `getString(key)` with no default: an absent key is a configuration error. */
  function RequireString(p: Props, key: string): Result<string, ConfigError>
  {
    if key in p.strings then Success(p.strings[key]) else Failure(MissingProperty(key))
  }

  /** `getInt(key, default)`. */
  function GetInt(p: Props, key: string, default: int): int
  {
    if key in p.ints then p.ints[key] else default
  }
}

=== FILE: evaluation.dfy ===
/**
 * Judging a response body against comma-separated JSONPath expressions. The
 * JSONPath engine itself is a parameter: it is consulted, never modelled.
 */
module Evaluation {
  import opened Wrappers
  import Strings

  /** What a JSONPath extraction yields, reduced to what the job looks at. */
  datatype Extracted =
    | EvalError
    | Null
    | Collection(size: nat)
    | Mapping(size: nat)
    | Scalar

  /** The JSONPath engine: extraction of an expression from a body that may be absent. */
  type PathOracle = (Option<string>, string) -> Extracted

  const ExpressionDelimiter: string := ","

  /**
   * `isContainsEval`: an evaluation error is a non-match and goes no further;
   * so are a null result and an empty collection or map; anything else matches.
   */
  function ContainsEval(extract: PathOracle, content: Option<string>, expr: string): (found: bool)
    ensures extract(content, expr).EvalError? ==> !found
    ensures extract(content, expr).Null? ==> !found
    ensures extract(content, expr).Collection? ==> (found <==> extract(content, expr).size > 0)
    ensures extract(content, expr).Mapping? ==> (found <==> extract(content, expr).size > 0)
    ensures extract(content, expr).Scalar? ==> found
  {
    match extract(content, expr)
    case EvalError => false
    case Null => false
    case Collection(n) => n != 0
    case Mapping(n) => n != 0
    case Scalar => true
  }

  /** A list entry that counts in the loop: not blank, and matching. */
  predicate Selects(extract: PathOracle, content: Option<string>, expr: string)
  {
    !Strings.IsBlank(expr) && ContainsEval(extract, content, expr)
  }

  /** The loop of `isContainsEvals`: some non-blank expression matches; blank ones are skipped. */
  function AnyNonBlankMatch(extract: PathOracle, content: Option<string>, exprs: seq<string>): (found: bool)
    ensures found <==> exists i :: 0 <= i < |exprs| && Selects(extract, content, exprs[i])
    decreases |exprs|
  {
    if |exprs| == 0 then false
    else if Strings.Trim(exprs[0]) != "" && ContainsEval(extract, content, exprs[0]) then true
    else
      var found := AnyNonBlankMatch(extract, content, exprs[1..]);
      SelectsShift(extract, content, exprs);
      found
  }

  /** Past a first entry that does not count, some entry counts iff some later one does. */
  lemma SelectsShift(extract: PathOracle, content: Option<string>, exprs: seq<string>)
    requires |exprs| > 0 && !Selects(extract, content, exprs[0])
    ensures (exists i :: 0 <= i < |exprs| && Selects(extract, content, exprs[i]))
        <==> (exists i :: 0 <= i < |exprs[1..]| && Selects(extract, content, exprs[1..][i]))
  {
    var rest := exprs[1..];
    if exists i :: 0 <= i < |exprs| && Selects(extract, content, exprs[i]) {
      var i :| 0 <= i < |exprs| && Selects(extract, content, exprs[i]);
      assert rest[i - 1] == exprs[i];
    }
    if exists i :: 0 <= i < |rest| && Selects(extract, content, rest[i]) {
      var i :| 0 <= i < |rest| && Selects(extract, content, rest[i]);
      assert exprs[i + 1] == rest[i];
    }
  }

  /**
   * `isContainsEvals`: a list of exactly one entry is tested as it is, even if
   * blank; otherwise the list matches when some non-blank entry matches.
   */
  function ContainsEvals(extract: PathOracle, content: Option<string>, exprs: seq<string>): (found: bool)
    ensures |exprs| == 1 ==> (found <==> ContainsEval(extract, content, exprs[0]))
    ensures |exprs| != 1 ==>
      (found <==> exists i :: 0 <= i < |exprs| && Selects(extract, content, exprs[i]))
  {
    if |exprs| == 1 then ContainsEval(extract, content, exprs[0])
    else AnyNonBlankMatch(extract, content, exprs)
  }

  /** An expression list as configured, split on commas the way `String.split` does. */
  function Matches(extract: PathOracle, content: Option<string>, exprList: string): (found: bool)
    ensures |Strings.Split(exprList, ExpressionDelimiter)| == 1 ==>
      (found <==> ContainsEval(extract, content, Strings.Pieces(exprList, ExpressionDelimiter)[0]))
    ensures |Strings.Split(exprList, ExpressionDelimiter)| != 1 ==>
      (found <==> exists i :: 0 <= i < |Strings.Pieces(exprList, ExpressionDelimiter)|
                             && Selects(extract, content, Strings.Pieces(exprList, ExpressionDelimiter)[i]))
  {
    var parts := Strings.Split(exprList, ExpressionDelimiter);
    DroppedPiecesSelectNothing(extract, content, exprList);
    ContainsEvals(extract, content, parts)
  }

  /**
   * The pieces `split` drops are empty, hence blank: some kept entry counts
   * iff some piece between commas does.
   */
  lemma DroppedPiecesSelectNothing(extract: PathOracle, content: Option<string>, exprList: string)
    ensures (exists i :: 0 <= i < |Strings.Split(exprList, ExpressionDelimiter)|
                         && Selects(extract, content, Strings.Split(exprList, ExpressionDelimiter)[i]))
        ==> (exists i :: 0 <= i < |Strings.Pieces(exprList, ExpressionDelimiter)|
                          && Selects(extract, content, Strings.Pieces(exprList, ExpressionDelimiter)[i]))
    ensures (exists i :: 0 <= i < |Strings.Split(exprList, ExpressionDelimiter)|
                         && Selects(extract, content, Strings.Split(exprList, ExpressionDelimiter)[i]))
        <== (exists i :: 0 <= i < |Strings.Pieces(exprList, ExpressionDelimiter)|
                          && Selects(extract, content, Strings.Pieces(exprList, ExpressionDelimiter)[i]))
  {
    var parts := Strings.Split(exprList, ExpressionDelimiter);
    var all := Strings.Pieces(exprList, ExpressionDelimiter);
    forall i | 0 <= i < |parts|
      ensures Selects(extract, content, parts[i]) == Selects(extract, content, all[i])
    {
      assert parts[i] == all[i];
    }
    forall i | |parts| <= i < |all|
      ensures !Selects(extract, content, all[i])
    {
      assert all[i] == "";
    }
    if exists i :: 0 <= i < |all| && Selects(extract, content, all[i]) {
      var i :| 0 <= i < |all| && Selects(extract, content, all[i]);
      assert i < |parts|;
      assert Selects(extract, content, parts[i]);
      assert exists j :: 0 <= j < |parts| && Selects(extract, content, parts[j]);
    }
    if exists i :: 0 <= i < |parts| && Selects(extract, content, parts[i]) {
      var i :| 0 <= i < |parts| && Selects(extract, content, parts[i]);
      assert Selects(extract, content, all[i]);
      assert exists j :: 0 <= j < |all| && Selects(extract, content, all[j]);
    }
  }

  /** A list without a comma is one expression, tested directly even when blank. */
  lemma SingleExpression(extract: PathOracle, content: Option<string>, expr: string)
    requires ',' !in expr
    ensures Matches(extract, content, expr) == ContainsEval(extract, content, expr)
  {
    Strings.IndexOfAbsent(expr, ExpressionDelimiter);
  }

  /** `A,B` matches iff a non-blank `A` matches or a non-blank `B` matches. */
  lemma TwoExpressions(extract: PathOracle, content: Option<string>, a: string, b: string)
    requires ',' !in a && ',' !in b && b != ""
    ensures Matches(extract, content, a + "," + b) <==>
      (!Strings.IsBlank(a) && ContainsEval(extract, content, a)) || (!Strings.IsBlank(b) && ContainsEval(extract, content, b))
  {
    assert Strings.Join([a, b], ExpressionDelimiter) == a + "," + b;
    Strings.SplitJoin([a, b], ExpressionDelimiter);
  }

  /** Swapping two expressions never changes the outcome. */
  lemma TwoExpressionsCommute(extract: PathOracle, content: Option<string>, a: string, b: string)
    requires ',' !in a && ',' !in b && a != "" && b != ""
    ensures Matches(extract, content, a + "," + b) == Matches(extract, content, b + "," + a)
  {
    TwoExpressions(extract, content, a, b);
    TwoExpressions(extract, content, b, a);
  }

  /** With more than one entry, the verdict depends only on which entries there are, not their order. */
  lemma OrderIndependent(extract: PathOracle, content: Option<string>, exprs: seq<string>, others: seq<string>)
    requires multiset(exprs) == multiset(others)
    requires |exprs| != 1
    ensures ContainsEvals(extract, content, exprs) == ContainsEvals(extract, content, others)
  {
    assert |exprs| == |multiset(exprs)| == |multiset(others)| == |others|;
    forall i | 0 <= i < |exprs|
      ensures exists j :: 0 <= j < |others| && others[j] == exprs[i]
    {
      assert exprs[i] in multiset(others);
    }
    forall j | 0 <= j < |others|
      ensures exists i :: 0 <= i < |exprs| && exprs[i] == others[j]
    {
      assert others[j] in multiset(exprs);
    }
  }

  /** A lone comma splits into no expressions at all, so it matches nothing. */
  lemma LoneCommaMatchesNothing(extract: PathOracle, content: Option<string>)
    ensures !Matches(extract, content, ",")
  {
    assert Strings.IndexOf(",", ExpressionDelimiter) == Some(0);
    assert Strings.IndexOf("", ExpressionDelimiter) == None;
    assert Strings.Pieces(",", ExpressionDelimiter) == ["", ""];
  }
}

=== FILE: executor.dfy ===
/** One HTTP exchange, reduced to its outcome, and how the primary call is judged. */
module Executor {
  import opened Wrappers
  import Strings
  import Evaluation

  /** A response: status code and the body, absent when the response has no entity. */
  datatype Response = Response(status: int, content: Option<string>)

  /** What sending a request produced: a transport fault, or a response. */
  datatype Attempt = Fault | Replied(response: Response)

  /** `status / 100` with Java's integer division, which truncates toward zero. */
  function StatusClass(status: int): int
  {
    if status >= 0 then status / 100 else -((-status) / 100)
  }

  /** A status whose class is 4 or 5: exactly the codes in [400, 600). */
  function IsErrorStatus(status: int): (err: bool)
    ensures err <==> 400 <= status < 600
  {
    StatusClass(status) == 4 || StatusClass(status) == 5
  }

  /** The attempt raised: a transport fault, or a response of class 4 or 5, whatever its body. */
  predicate IsFailure(a: Attempt)
  {
    a.Fault? || IsErrorStatus(a.response.status)
  }

  /**
   * The primary call's verdict on a well-formed response: a configured fail
   * expression that matches vetoes it, and a configured success expression
   * must match; an expression left empty imposes nothing.
   */
  function Verdict(extract: Evaluation.PathOracle, content: Option<string>, failEval: string, successEval: string): (ok: bool)
    ensures failEval == "" && successEval == "" ==> ok
    ensures failEval != "" && Evaluation.Matches(extract, content, failEval) ==> !ok
    ensures successEval != "" && !Evaluation.Matches(extract, content, successEval) ==> !ok
    ensures ((failEval == "" || !Evaluation.Matches(extract, content, failEval))
          && (successEval == "" || Evaluation.Matches(extract, content, successEval))) ==> ok
  {
    var ok := failEval == "" || !Evaluation.Matches(extract, content, failEval);
    ok && (successEval == "" || Evaluation.Matches(extract, content, successEval))
  }

  /** With `successEval` set to `A,B` and no fail expression, the verdict is: A matches or B matches. */
  lemma VerdictOnTwoSuccessExpressions(extract: Evaluation.PathOracle, content: Option<string>, a: string, b: string)
    requires ',' !in a && ',' !in b && b != ""
    ensures Verdict(extract, content, "", a + "," + b) <==>
      (!Strings.IsBlank(a) && Evaluation.ContainsEval(extract, content, a))
      || (!Strings.IsBlank(b) && Evaluation.ContainsEval(extract, content, b))
  {
    Evaluation.TwoExpressions(extract, content, a, b);
  }
}

=== FILE: headers.dfy ===
/** The raw header block: CRLF-separated `Name:Value` lines. */
module Headers {
  import opened Wrappers
  import Strings

  const Crlf: string := "\r\n"

  datatype Header = Header(name: string, value: string)

  /** The line a header is written as: name, colon, value. */
  function Line(h: Header): string
  {
    h.name + ":" + h.value
  }

  /** Lines of a header list, in order. */
  function Lines(hs: seq<Header>): (lines: seq<string>)
    ensures |lines| == |hs|
    ensures forall i :: 0 <= i < |hs| ==> lines[i] == Line(hs[i])
  {
    if |hs| == 0 then [] else [Line(hs[0])] + Lines(hs[1..])
  }

  /**
   * One CRLF segment, split at its first colon; a segment without a colon
   * yields no header. The value is kept as is, further colons included.
   */
  function ParseSegment(segment: string): (h: Option<Header>)
    ensures h.None? <==> ':' !in segment
    ensures h.Some? ==> ':' !in h.value.name && Line(h.value) == segment
  {
    Strings.IndexOfChar(segment, ':');
    match Strings.IndexOf(segment, ":")
    case None => None
    case Some(i) =>
      assert segment == segment[..i] + ":" + segment[i + 1..];
      Some(Header(segment[..i], segment[i + 1..]))
  }

  /** Headers of the segments that have a colon, in segment order. */
  function ParseSegments(segments: seq<string>): (hs: seq<Header>)
    ensures |hs| <= |segments|
    ensures forall i :: 0 <= i < |hs| ==> ':' !in hs[i].name
    decreases |segments|
  {
    if |segments| == 0 then []
    else
      match ParseSegment(segments[0])
      case None => ParseSegments(segments[1..])
      case Some(h) => [h] + ParseSegments(segments[1..])
  }

  /** `parseHttpHeaders`: no headers at all (`null`) for an empty block. */
  function ParseHeaders(block: string): (r: Option<seq<Header>>)
    ensures r.None? <==> block == ""
    ensures r.Some? ==> |r.value| <= |Strings.Split(block, Crlf)|
    ensures r.Some? ==> forall i :: 0 <= i < |r.value| ==> ':' !in r.value[i].name
  {
    if |block| == 0 then None
    else Some(ParseSegments(Strings.Split(block, Crlf)))
  }

  /** The segments that contain a colon, in order. */
  function WithColon(segments: seq<string>): (r: seq<string>)
    ensures forall i :: 0 <= i < |r| ==> ':' in r[i]
  {
    if |segments| == 0 then []
    else if ':' in segments[0] then [segments[0]] + WithColon(segments[1..])
    else WithColon(segments[1..])
  }

  /** `sub` is `s` with some elements left out, the rest kept in order. */
  ghost predicate IsSubsequence<T>(sub: seq<T>, s: seq<T>)
    decreases |s|
  {
    if |sub| == 0 then true
    else if |s| == 0 then false
    else if sub[0] == s[0] then IsSubsequence(sub[1..], s[1..])
    else IsSubsequence(sub, s[1..])
  }

  /**
   * The parsed headers, written back as lines, are exactly the segments that
   * have a colon: nothing altered, and only colon-less segments dropped.
   */
  lemma {:induction false} ParsedHeadersAreColonSegments(segments: seq<string>)
    ensures Lines(ParseSegments(segments)) == WithColon(segments)
    decreases |segments|
  {
    if |segments| > 0 {
      ParsedHeadersAreColonSegments(segments[1..]);
      var rest := ParseSegments(segments[1..]);
      match ParseSegment(segments[0])
      case None =>
      case Some(h) =>
        assert Lines([h] + rest) == [Line(h)] + Lines(rest);
    }
  }

  /** The segments with a colon keep their relative order. */
  lemma {:induction false} ColonSegmentsInOrder(segments: seq<string>)
    ensures IsSubsequence(WithColon(segments), segments)
    decreases |segments|
  {
    if |segments| > 0 {
      ColonSegmentsInOrder(segments[1..]);
      var rest := WithColon(segments[1..]);
      if ':' in segments[0] {
        assert WithColon(segments) == [segments[0]] + rest;
        assert ([segments[0]] + rest)[1..] == rest;
      } else {
        assert |rest| > 0 ==> rest[0] != segments[0];
      }
    }
  }

  /** Writing headers as a CRLF block and parsing it back gives the same headers. */
  lemma ParseRendered(hs: seq<Header>)
    requires |hs| > 0
    requires forall i :: 0 <= i < |hs| ==> ':' !in hs[i].name && '\r' !in hs[i].name && '\r' !in hs[i].value
    ensures ParseHeaders(Strings.Join(Lines(hs), Crlf)) == Some(hs)
  {
    var lines := Lines(hs);
    forall k | 0 <= k < |lines|
      ensures Crlf[0] !in lines[k]
    {
      assert lines[k] == hs[k].name + ":" + hs[k].value;
    }
    Strings.SplitJoin(lines, Crlf);
    ParseLines(hs);
    assert lines[0] <= Strings.Join(lines, Crlf) by {
      Strings.JoinStartsWithFirst(lines, Crlf);
    }
  }

  /** A block of one line is one header, split at the line's first colon. */
  lemma OneLine(name: string, value: string)
    requires ':' !in name && '\r' !in name && '\r' !in value
    ensures ParseHeaders(name + ":" + value) == Some([Header(name, value)])
  {
    var h := Header(name, value);
    ParseRendered([h]);
    assert Lines([h]) == [Line(h)];
  }

  /** Parsing the lines of headers whose names lack a colon gives the headers back. */
  lemma {:induction false} ParseLines(hs: seq<Header>)
    requires forall i :: 0 <= i < |hs| ==> ':' !in hs[i].name
    ensures ParseSegments(Lines(hs)) == hs
    decreases |hs|
  {
    if |hs| > 0 {
      var h, tail := hs[0], hs[1..];
      assert forall i :: 0 <= i < |tail| ==> tail[i] == hs[i + 1];
      ParseLines(tail);
      ParseLine(h);
      ParseSegmentsCons(Line(h), Lines(tail), h);
      assert Lines(hs) == [Line(h)] + Lines(tail);
      assert hs == [h] + tail;
    }
  }

  /** A segment that parses to a header contributes that header ahead of the rest. */
  lemma ParseSegmentsCons(segment: string, rest: seq<string>, h: Header)
    requires ParseSegment(segment) == Some(h)
    ensures ParseSegments([segment] + rest) == [h] + ParseSegments(rest)
  {
    assert ([segment] + rest)[1..] == rest;
  }

  /** The line of a header whose name lacks a colon parses back to that header. */
  lemma ParseLine(h: Header)
    requires ':' !in h.name
    ensures ParseSegment(Line(h)) == Some(h)
  {
    Strings.IndexOfAfter(h.name, ":", h.value);
    assert Line(h)[..|h.name|] == h.name;
    assert Line(h)[|h.name| + 1..] == h.value;
  }
}

=== FILE: job.dfy ===
/**
 * `HttpJob.run`: build the primary request, send it once, judge the response,
 * and, when it passed and a status URL is configured, poll the status endpoint.
 */
module Job {
  import opened Wrappers
  import opened Config
  import Evaluation
  import Executor
  import Requests
  import Poller

  /** Why the job failed; `run` throws each of these. */
  datatype JobFailure =
    | Misconfigured(error: ConfigError)
    | TransportFault
    | HttpError(status: int)
    | ExecuteFailed

  /** The job's one outcome; `Unresolved` when the poll had not stopped by the end of the input. */
  datatype JobOutcome = Succeeded | Failed(reason: JobFailure) | Unresolved(poll: Poller.PollRun)

  /** The primary call's verdict on a body, with `failEval` and `successEval` defaulting to empty. */
  function PrimaryVerdict(p: Props, extract: Evaluation.PathOracle, content: Option<string>): bool
  {
    Executor.Verdict(extract, content, GetString(p, FailEvalKey, ""), GetString(p, SuccessEvalKey, ""))
  }

  /** The primary call went through and was judged a success, so polling is next if configured. */
  predicate PrimaryPassed(p: Props, extract: Evaluation.PathOracle, primary: Executor.Attempt)
  {
    && Requests.BuildRequest(p, "").Success?
    && primary.Replied?
    && !Executor.IsErrorStatus(primary.response.status)
    && PrimaryVerdict(p, extract, primary.response.content)
  }

  /** The status-check phase runs: the primary call passed and `status.url` is present. */
  predicate Polls(p: Props, extract: Evaluation.PathOracle, primary: Executor.Attempt)
  {
    PrimaryPassed(p, extract, primary) && StatusPrefix + UrlKey in p.strings
  }

  /**
   * `run`, given the primary call's outcome and the status poll's iterations.
   * A cancelled poll makes `checkStatus` return false, which fails the job
   * like a fail match does.
   */
  function Run(p: Props, extract: Evaluation.PathOracle, primary: Executor.Attempt, ticks: seq<Poller.Tick>): (o: JobOutcome)
    ensures Requests.BuildRequest(p, "").Failure? ==> o == Failed(Misconfigured(Requests.BuildRequest(p, "").error))
    ensures Requests.BuildRequest(p, "").Success? && primary.Fault? ==> o == Failed(TransportFault)
    ensures o.Succeeded? ==> PrimaryPassed(p, extract, primary)
    ensures PrimaryPassed(p, extract, primary) && StatusPrefix + UrlKey !in p.strings ==> o.Succeeded?
    ensures o.Unresolved? ==> Polls(p, extract, primary) && o.poll.attempts == |ticks|
  {
    match Requests.BuildRequest(p, "")
    case Failure(e) => Failed(Misconfigured(e))
    case Success(_) =>
      match primary
      case Fault => Failed(TransportFault)
      case Replied(resp) =>
        if Executor.IsErrorStatus(resp.status) then Failed(HttpError(resp.status))
        else if !PrimaryVerdict(p, extract, resp.content) then Failed(ExecuteFailed)
        else if StatusPrefix + UrlKey !in p.strings then Succeeded
        else
          match Poller.CheckStatus(p, extract, ticks)
          case Failure(e) => Failed(Misconfigured(e))
          case Success(r) =>
            if r.end == Poller.StillPolling then Unresolved(r)
            else if Poller.StatusOk(r) then Succeeded
            else Failed(ExecuteFailed)
  }

  /** An unsupported method fails the job as misconfigured, whatever the network would have done. */
  lemma UnsupportedMethodFailsBeforeSending(p: Props, extract: Evaluation.PathOracle,
                                            a1: Executor.Attempt, a2: Executor.Attempt,
                                            t1: seq<Poller.Tick>, t2: seq<Poller.Tick>)
    requires UrlKey in p.strings
    requires Requests.MethodName(p, "") != "GET" && Requests.MethodName(p, "") != "POST"
    ensures Run(p, extract, a1, t1) == Run(p, extract, a2, t2)
    ensures Run(p, extract, a1, t1) == Failed(Misconfigured(UnsupportedMethod(Requests.MethodName(p, ""))))
  {
    assert "" + UrlKey == UrlKey;
  }

  /** A status of class 4 or 5 fails the job, whatever the body and the expressions say. */
  lemma ErrorStatusFails(p: Props, extract: Evaluation.PathOracle, status: int, content: Option<string>, ticks: seq<Poller.Tick>)
    requires Requests.BuildRequest(p, "").Success?
    requires 400 <= status < 600
    ensures Run(p, extract, Executor.Replied(Executor.Response(status, content)), ticks) == Failed(HttpError(status))
  {
  }

  /** With no expressions and no status URL, any response outside classes 4 and 5 succeeds, body or not. */
  lemma NoExpressionsSucceed(p: Props, extract: Evaluation.PathOracle, status: int, content: Option<string>, ticks: seq<Poller.Tick>)
    requires Requests.BuildRequest(p, "").Success?
    requires GetString(p, FailEvalKey, "") == "" && GetString(p, SuccessEvalKey, "") == ""
    requires StatusPrefix + UrlKey !in p.strings
    requires !(400 <= status < 600)
    ensures Run(p, extract, Executor.Replied(Executor.Response(status, content)), ticks) == Succeeded
  {
  }

  /** Unless the primary call passed and a status URL is configured, the poll's iterations play no part. */
  lemma PollsOnlyAfterPass(p: Props, extract: Evaluation.PathOracle, primary: Executor.Attempt, t1: seq<Poller.Tick>, t2: seq<Poller.Tick>)
    requires !Polls(p, extract, primary)
    ensures Run(p, extract, primary, t1) == Run(p, extract, primary, t2)
  {
  }

  /**
   * Once polling runs, the job succeeds exactly when the poll's success
   * expression decides it; a fail match, a spent error budget and a
   * cancellation all fail it alike.
   */
  lemma PollDecidesJob(p: Props, extract: Evaluation.PathOracle, primary: Executor.Attempt, ticks: seq<Poller.Tick>)
    requires Polls(p, extract, primary)
    requires StatusPrefix + SuccessEvalKey in p.strings
    requires GetString(p, StatusPrefix + FailEvalKey, "") != ""
    requires Requests.BuildRequest(p, StatusPrefix).Success?
    requires !Poller.SleepThrows(p, ticks)
    ensures Poller.CheckStatus(p, extract, ticks).Success?
    ensures var r := Poller.CheckStatus(p, extract, ticks).value;
      && (Run(p, extract, primary, ticks) == Succeeded <==> r.end == Poller.SuccessMatched)
      && (r.end == Poller.FailMatched || r.end == Poller.RetriesExhausted || r.end == Poller.Cancelled ==>
            Run(p, extract, primary, ticks) == Failed(ExecuteFailed))
  {
  }

  /** A status phase whose `failEval` is empty fails the job before any status request is sent. */
  lemma EmptyStatusFailEvalFailsBeforePolling(p: Props, extract: Evaluation.PathOracle, primary: Executor.Attempt, t1: seq<Poller.Tick>, t2: seq<Poller.Tick>)
    requires Polls(p, extract, primary)
    requires StatusPrefix + SuccessEvalKey in p.strings
    requires GetString(p, StatusPrefix + FailEvalKey, "") == ""
    ensures Run(p, extract, primary, t1) == Run(p, extract, primary, t2) == Failed(Misconfigured(StatusFailEvalEmpty))
  {
  }

  /**
   * A negative `status.interval` fails the job at the first status attempt,
   * whatever that attempt would have returned; a cancel seen first still
   * stops the loop before it sleeps.
   */
  lemma NegativeIntervalFails(p: Props, extract: Evaluation.PathOracle, primary: Executor.Attempt,
                              a: Executor.Attempt, rest: seq<Poller.Tick>)
    requires Polls(p, extract, primary)
    requires StatusPrefix + SuccessEvalKey in p.strings
    requires GetString(p, StatusPrefix + FailEvalKey, "") != ""
    requires Requests.BuildRequest(p, StatusPrefix).Success?
    requires GetInt(p, StatusIntervalKey, Poller.DefaultInterval) < 0
    ensures Run(p, extract, primary, [Poller.Attempted(a)] + rest)
      == Failed(Misconfigured(NegativeInterval(GetInt(p, StatusIntervalKey, Poller.DefaultInterval))))
    ensures Run(p, extract, primary, [Poller.CancelSeen] + rest) == Failed(ExecuteFailed)
  {
    assert Poller.SleepThrows(p, [Poller.Attempted(a)] + rest);
    assert !Poller.SleepThrows(p, [Poller.CancelSeen] + rest);
  }
}

=== FILE: poller.dfy ===
/**
 * The status-check poll of `checkStatus`. Each loop iteration first reads the
 * cancel flag, then makes one attempt; the attempts' outcomes (and when the
 * flag is seen set) are the input, so no time passes and nothing is sent.
 */
module Poller {
  import opened Wrappers
  import opened Config
  import Evaluation
  import Executor
  import Requests

  const DefaultMaxRetries: int := 3

  /** One loop iteration as the loop sees it: the cancel flag already set, or the outcome of its attempt. */
  datatype Tick = CancelSeen | Attempted(attempt: Executor.Attempt)

  /**
   * How polling stopped. `StillPolling` means the input ran out while the loop
   * would have gone on: there is no deadline besides the error budget and
   * cancellation.
   */
  datatype PollEnd = SuccessMatched | FailMatched | RetriesExhausted | Cancelled | StillPolling

  /** Where polling stopped, with the consecutive-error count and attempt count at that point. */
  datatype PollRun = PollRun(end: PollEnd, errors: nat, attempts: nat)

  datatype PollConfig = PollConfig(maxRetries: int, failEval: string, successEval: string)

  predicate FailMatch(cfg: PollConfig, extract: Evaluation.PathOracle, resp: Executor.Response)
  {
    cfg.failEval != "" && Evaluation.Matches(extract, resp.content, cfg.failEval)
  }

  predicate SuccessMatch(cfg: PollConfig, extract: Evaluation.PathOracle, resp: Executor.Response)
  {
    Evaluation.Matches(extract, resp.content, cfg.successEval)
  }

  /** An attempt that raised: a transport fault or a response of class 4 or 5. */
  predicate IsErrorTick(t: Tick)
  {
    t.Attempted? && Executor.IsFailure(t.attempt)
  }

  /** An attempt that decides nothing by itself: an error, or a response matching neither expression. */
  predicate Inconclusive(cfg: PollConfig, extract: Evaluation.PathOracle, t: Tick)
  {
    t.Attempted? &&
    (Executor.IsFailure(t.attempt)
     || (!FailMatch(cfg, extract, t.attempt.response) && !SuccessMatch(cfg, extract, t.attempt.response)))
  }

  /** A well-formed response that the fail expression matches. */
  predicate FailDecides(cfg: PollConfig, extract: Evaluation.PathOracle, t: Tick)
  {
    t.Attempted? && !Executor.IsFailure(t.attempt) && FailMatch(cfg, extract, t.attempt.response)
  }

  /** A well-formed response that the success expression matches and the fail expression does not. */
  predicate SuccessDecides(cfg: PollConfig, extract: Evaluation.PathOracle, t: Tick)
  {
    t.Attempted? && !Executor.IsFailure(t.attempt)
    && !FailMatch(cfg, extract, t.attempt.response) && SuccessMatch(cfg, extract, t.attempt.response)
  }

  /**
   * The poll loop from a state of `errors` consecutive errors and `attempts`
   * attempts so far: an error bumps the count and ends polling once the count
   * exceeds `maxRetries`; a well-formed response is checked against the fail
   * expression first, then the success expression, and otherwise resets the
   * count. Every attempt is counted, the deciding one included.
   */
  function PollFrom(cfg: PollConfig, extract: Evaluation.PathOracle, ticks: seq<Tick>, errors: nat, attempts: nat): (r: PollRun)
    ensures attempts <= r.attempts <= attempts + |ticks|
    decreases |ticks|
  {
    if |ticks| == 0 then PollRun(StillPolling, errors, attempts)
    else
      match ticks[0]
      case CancelSeen => PollRun(Cancelled, errors, attempts)
      case Attempted(a) =>
        if Executor.IsFailure(a) then
          if errors + 1 > cfg.maxRetries then PollRun(RetriesExhausted, errors + 1, attempts + 1)
          else PollFrom(cfg, extract, ticks[1..], errors + 1, attempts + 1)
        else if FailMatch(cfg, extract, a.response) then PollRun(FailMatched, errors, attempts + 1)
        else if SuccessMatch(cfg, extract, a.response) then PollRun(SuccessMatched, errors, attempts + 1)
        else PollFrom(cfg, extract, ticks[1..], 0, attempts + 1)
  }

  /** `checkStatus`'s loop: a `while` over the iterations, returning from inside. */
  method Poll(cfg: PollConfig, extract: Evaluation.PathOracle, ticks: seq<Tick>) returns (r: PollRun)
    ensures r == PollFrom(cfg, extract, ticks, 0, 0)
    ensures r.attempts <= |ticks|
  {
    var errors: nat := 0;
    var attempts: nat := 0;
    while attempts < |ticks|
      invariant attempts <= |ticks|
      invariant PollFrom(cfg, extract, ticks[attempts..], errors, attempts) == PollFrom(cfg, extract, ticks, 0, 0)
    {
      var t := ticks[attempts];
      assert ticks[attempts..][1..] == ticks[attempts + 1..];
      if t.CancelSeen? {
        return PollRun(Cancelled, errors, attempts);
      }
      var a := t.attempt;
      attempts := attempts + 1;
      if Executor.IsFailure(a) {
        errors := errors + 1;
        if errors > cfg.maxRetries {
          return PollRun(RetriesExhausted, errors, attempts);
        }
      } else {
        if FailMatch(cfg, extract, a.response) {
          return PollRun(FailMatched, errors, attempts);
        }
        if SuccessMatch(cfg, extract, a.response) {
          return PollRun(SuccessMatched, errors, attempts);
        }
        errors := 0;
      }
    }
    return PollRun(StillPolling, errors, attempts);
  }

  /** `checkStatus`'s boolean: true only when the success expression decided. */
  function StatusOk(r: PollRun): bool
  {
    r.end == SuccessMatched
  }

  /** Once polling has stopped, later iterations are never looked at; otherwise they continue from where it was. */
  lemma {:induction false} PollAppend(cfg: PollConfig, extract: Evaluation.PathOracle, t1: seq<Tick>, t2: seq<Tick>, e: nat, a: nat)
    ensures var r1 := PollFrom(cfg, extract, t1, e, a);
      PollFrom(cfg, extract, t1 + t2, e, a)
        == if r1.end == StillPolling then PollFrom(cfg, extract, t2, r1.errors, r1.attempts) else r1
    decreases |t1|
  {
    if |t1| > 0 {
      assert (t1 + t2)[0] == t1[0];
      assert (t1 + t2)[1..] == t1[1..] + t2;
      match t1[0]
      case CancelSeen =>
      case Attempted(x) =>
        if Executor.IsFailure(x) {
          PollAppend(cfg, extract, t1[1..], t2, e + 1, a + 1);
        } else {
          PollAppend(cfg, extract, t1[1..], t2, 0, a + 1);
        }
    } else {
      assert t1 + t2 == t2;
    }
  }

  /** A cancel seen at the head of an iteration ends polling as cancelled, whatever would have followed. */
  lemma CancelEndsPolling(cfg: PollConfig, extract: Evaluation.PathOracle, before: seq<Tick>, after: seq<Tick>, e: nat, a: nat)
    requires PollFrom(cfg, extract, before, e, a).end == StillPolling
    ensures var r := PollFrom(cfg, extract, before, e, a);
      PollFrom(cfg, extract, before + [CancelSeen] + after, e, a) == PollRun(Cancelled, r.errors, r.attempts)
  {
    assert before + [CancelSeen] + after == before + ([CancelSeen] + after);
    PollAppend(cfg, extract, before, [CancelSeen] + after, e, a);
  }

  /**
   * What each iteration contributed to a run `r` that started with `a`
   * attempts: every attempt before the last one made was inconclusive;
   * polling is cancelled only at a tick whose cancel flag is set, and the
   * attempt that decides it is an error (budget spent), a fail match, or a
   * success match with no fail match (the fail expression is consulted first).
   */
  ghost predicate Explains(cfg: PollConfig, extract: Evaluation.PathOracle, ticks: seq<Tick>, r: PollRun, a: nat)
  {
    var n := r.attempts - a;
    && 0 <= n <= |ticks|
    && (r.end == StillPolling ==> n == |ticks|)
    && (r.end == Cancelled ==> n < |ticks| && ticks[n] == CancelSeen)
    && (r.end == StillPolling || r.end == Cancelled ==>
          forall k :: 0 <= k < n ==> Inconclusive(cfg, extract, ticks[k]))
    && (r.end == RetriesExhausted || r.end == FailMatched || r.end == SuccessMatched ==>
          n > 0 && forall k :: 0 <= k < n - 1 ==> Inconclusive(cfg, extract, ticks[k]))
    && (r.end == RetriesExhausted ==> n > 0 && IsErrorTick(ticks[n - 1]))
    && (r.end == FailMatched ==> n > 0 && FailDecides(cfg, extract, ticks[n - 1]))
    && (r.end == SuccessMatched ==> n > 0 && SuccessDecides(cfg, extract, ticks[n - 1]))
  }

  /** Every run of the poll loop is explained by the iterations it consumed. */
  lemma {:induction false} PollDecision(cfg: PollConfig, extract: Evaluation.PathOracle, ticks: seq<Tick>, e: nat, a: nat)
    ensures Explains(cfg, extract, ticks, PollFrom(cfg, extract, ticks, e, a), a)
    decreases |ticks|
  {
    if |ticks| == 0 || ticks[0].CancelSeen? {
      StoppedBeforeAttempting(cfg, extract, ticks, e, a);
    } else if Continues(cfg, extract, ticks[0], e) {
      var e' := NextErrors(ticks[0], e);
      var r := PollFrom(cfg, extract, ticks[1..], e', a + 1);
      PollFromStep(cfg, extract, ticks, e, a);
      PollDecision(cfg, extract, ticks[1..], e', a + 1);
      ExplainsAfterInconclusive(cfg, extract, ticks, r, a);
    } else {
      DecidedByFirst(cfg, extract, ticks, e, a);
    }
  }

  /** An attempt after which the loop goes on: inconclusive, and an error only while the budget lasts. */
  predicate Continues(cfg: PollConfig, extract: Evaluation.PathOracle, t: Tick, e: nat)
  {
    Inconclusive(cfg, extract, t) && (Executor.IsFailure(t.attempt) ==> e + 1 <= cfg.maxRetries)
  }

  /** The consecutive-error count after an attempted iteration: one more after an error, zero otherwise. */
  function NextErrors(t: Tick, e: nat): nat
    requires t.Attempted?
  {
    if Executor.IsFailure(t.attempt) then e + 1 else 0
  }

  /** An inconclusive attempt within budget hands the rest of the iterations on with updated counters. */
  lemma PollFromStep(cfg: PollConfig, extract: Evaluation.PathOracle, ticks: seq<Tick>, e: nat, a: nat)
    requires |ticks| > 0 && Continues(cfg, extract, ticks[0], e)
    ensures PollFrom(cfg, extract, ticks, e, a) == PollFrom(cfg, extract, ticks[1..], NextErrors(ticks[0], e), a + 1)
  {
  }

  /** With no iteration left, or the cancel flag set, the run stops without an attempt. */
  lemma StoppedBeforeAttempting(cfg: PollConfig, extract: Evaluation.PathOracle, ticks: seq<Tick>, e: nat, a: nat)
    requires |ticks| == 0 || ticks[0].CancelSeen?
    ensures Explains(cfg, extract, ticks, PollFrom(cfg, extract, ticks, e, a), a)
  {
    assert PollFrom(cfg, extract, ticks, e, a).attempts == a;
  }

  /** A first attempt that ends polling explains the run by itself. */
  lemma DecidedByFirst(cfg: PollConfig, extract: Evaluation.PathOracle, ticks: seq<Tick>, e: nat, a: nat)
    requires |ticks| > 0 && ticks[0].Attempted?
    requires !Continues(cfg, extract, ticks[0], e)
    ensures Explains(cfg, extract, ticks, PollFrom(cfg, extract, ticks, e, a), a)
  {
    var r := PollFrom(cfg, extract, ticks, e, a);
    assert r.attempts == a + 1;
  }

  /** An inconclusive first attempt extends an explanation of the rest to the whole. */
  lemma ExplainsAfterInconclusive(cfg: PollConfig, extract: Evaluation.PathOracle, ticks: seq<Tick>, r: PollRun, a: nat)
    requires |ticks| > 0 && Inconclusive(cfg, extract, ticks[0])
    requires Explains(cfg, extract, ticks[1..], r, a + 1)
    ensures Explains(cfg, extract, ticks, r, a)
  {
    var rest := ticks[1..];
    assert forall k :: 1 <= k < |ticks| ==> ticks[k] == rest[k - 1];
  }

  /** Consecutive errors at the end of a history of iterations. */
  function ErrorRun(h: seq<Tick>): (n: nat)
    ensures n <= |h|
    ensures forall k :: |h| - n <= k < |h| ==> IsErrorTick(h[k])
    ensures n < |h| ==> !IsErrorTick(h[|h| - 1 - n])
  {
    if |h| == 0 then 0
    else if IsErrorTick(h[|h| - 1]) then ErrorRun(h[..|h| - 1]) + 1
    else 0
  }

  /** Consecutive errors that end polling: `maxRetries + 1`, or one when `maxRetries` is negative. */
  function Budget(maxRetries: int): nat
  {
    if maxRetries >= 0 then maxRetries + 1 else 1
  }

  /**
   * For a run `r` that started after history `h`: the error count equals the
   * trailing error run of everything seen so far, reaches the budget exactly
   * when polling gives up, and stays below it otherwise.
   */
  ghost predicate CountTracksErrors(cfg: PollConfig, ticks: seq<Tick>, h: seq<Tick>, r: PollRun)
  {
    var n := r.attempts - |h|;
    && 0 <= n <= |ticks|
    && (r.end == RetriesExhausted || r.end == Cancelled || r.end == StillPolling ==>
          r.errors == ErrorRun(h + ticks[..n]))
    && (r.end == RetriesExhausted ==> r.errors == Budget(cfg.maxRetries))
    && (r.end == Cancelled || r.end == StillPolling ==> r.errors < Budget(cfg.maxRetries))
    && WithinBudgetBefore(cfg, ticks, h, n - 1)
  }

  /**
   * After each of the first `m` iterations, the trailing error run of the
   * history so far was still under budget: polling could not have given up
   * there, so it went on.
   */
  ghost predicate WithinBudgetBefore(cfg: PollConfig, ticks: seq<Tick>, h: seq<Tick>, m: int)
  {
    forall j :: 1 <= j <= m && j <= |ticks| ==> ErrorRun(h + ticks[..j]) < Budget(cfg.maxRetries)
  }

  /** Moving the first iteration into the history keeps `WithinBudgetBefore` when that iteration left the run under budget. */
  lemma WithinBudgetShift(cfg: PollConfig, ticks: seq<Tick>, h: seq<Tick>, m: int)
    requires |ticks| > 0
    requires ErrorRun(h + [ticks[0]]) < Budget(cfg.maxRetries)
    requires WithinBudgetBefore(cfg, ticks[1..], h + [ticks[0]], m - 1)
    ensures WithinBudgetBefore(cfg, ticks, h, m)
  {
    forall j | 1 <= j <= m && j <= |ticks|
      ensures ErrorRun(h + ticks[..j]) < Budget(cfg.maxRetries)
    {
      if j == 1 {
        assert h + ticks[..1] == h + [ticks[0]];
      } else {
        SnocSlice(h, ticks, j);
        assert ErrorRun((h + [ticks[0]]) + ticks[1..][..j - 1]) < Budget(cfg.maxRetries);
      }
    }
  }

  /** Started with a history whose trailing error run is under budget, the error count tracks the errors. */
  lemma {:induction false} ErrorCountIsErrorRun(cfg: PollConfig, extract: Evaluation.PathOracle, ticks: seq<Tick>, h: seq<Tick>)
    requires ErrorRun(h) < Budget(cfg.maxRetries)
    ensures CountTracksErrors(cfg, ticks, h, PollFrom(cfg, extract, ticks, ErrorRun(h), |h|))
    decreases |ticks|
  {
    if |ticks| == 0 || ticks[0].CancelSeen? {
      assert h + ticks[..0] == h;
    } else {
      var x := ticks[0].attempt;
      var h' := h + [ticks[0]];
      ErrorRunSnoc(h, ticks[0]);
      if Executor.IsFailure(x) {
        if ErrorRun(h) + 1 <= cfg.maxRetries {
          ErrorCountStep(cfg, extract, ticks, h);
        } else {
          assert h + ticks[..1] == h';
        }
      } else if !FailMatch(cfg, extract, x.response) && !SuccessMatch(cfg, extract, x.response) {
        ErrorCountStep(cfg, extract, ticks, h);
      }
    }
  }

  /** The inductive step of `ErrorCountIsErrorRun`: an attempt after which polling continues. */
  lemma {:induction false} ErrorCountStep(cfg: PollConfig, extract: Evaluation.PathOracle, ticks: seq<Tick>, h: seq<Tick>)
    requires ErrorRun(h) < Budget(cfg.maxRetries)
    requires |ticks| > 0 && Inconclusive(cfg, extract, ticks[0])
    requires IsErrorTick(ticks[0]) ==> ErrorRun(h) + 1 <= cfg.maxRetries
    ensures CountTracksErrors(cfg, ticks, h, PollFrom(cfg, extract, ticks, ErrorRun(h), |h|))
    decreases |ticks|, 0
  {
    var h' := h + [ticks[0]];
    ErrorRunSnoc(h, ticks[0]);
    assert PollFrom(cfg, extract, ticks, ErrorRun(h), |h|) == PollFrom(cfg, extract, ticks[1..], ErrorRun(h'), |h'|);
    ErrorCountIsErrorRun(cfg, extract, ticks[1..], h');
    var r := PollFrom(cfg, extract, ticks[1..], ErrorRun(h'), |h'|);
    CountTracksShift(cfg, ticks, h, r);
  }

  /** Moving the first iteration from the input into the history keeps `CountTracksErrors`. */
  lemma CountTracksShift(cfg: PollConfig, ticks: seq<Tick>, h: seq<Tick>, r: PollRun)
    requires |ticks| > 0
    requires ErrorRun(h + [ticks[0]]) < Budget(cfg.maxRetries)
    requires CountTracksErrors(cfg, ticks[1..], h + [ticks[0]], r)
    ensures CountTracksErrors(cfg, ticks, h, r)
  {
    var n := r.attempts - |h|;
    assert 1 <= n;
    SnocSlice(h, ticks, n);
    WithinBudgetShift(cfg, ticks, h, n - 1);
  }

  /** The history plus the first iteration, then the next `n - 1`, is the history plus the first `n`. */
  lemma SnocSlice(h: seq<Tick>, ticks: seq<Tick>, n: int)
    requires 1 <= n <= |ticks|
    ensures (h + [ticks[0]]) + ticks[1..][..n - 1] == h + ticks[..n]
  {
    assert ticks[..n] == [ticks[0]] + ticks[1..][..n - 1];
  }

  /** One more iteration extends the trailing error run if it is an error, and resets it otherwise. */
  lemma ErrorRunSnoc(h: seq<Tick>, t: Tick)
    ensures ErrorRun(h + [t]) == if IsErrorTick(t) then ErrorRun(h) + 1 else 0
  {
    assert (h + [t])[..|h|] == h;
  }

  /**
   * From the start of polling: it gives up exactly when `Budget(maxRetries)`
   * consecutive errors have been seen (the last attempts made were all
   * errors), and while it goes on or is cancelled the trailing error run is
   * shorter than that.
   */
  lemma RetriesExhaustedExactly(cfg: PollConfig, extract: Evaluation.PathOracle, ticks: seq<Tick>)
    ensures var r := PollFrom(cfg, extract, ticks, 0, 0);
      && (r.end == RetriesExhausted ==>
            && r.errors == Budget(cfg.maxRetries)
            && ErrorRun(ticks[..r.attempts]) == Budget(cfg.maxRetries))
      && (r.end == Cancelled || r.end == StillPolling ==> ErrorRun(ticks[..r.attempts]) < Budget(cfg.maxRetries))
  {
    var h: seq<Tick> := [];
    assert ErrorRun(h) == 0 && |h| == 0;
    ErrorCountIsErrorRun(cfg, extract, ticks, h);
    var r := PollFrom(cfg, extract, ticks, 0, 0);
    assert h + ticks[..r.attempts] == ticks[..r.attempts];
  }

  /**
   * From the start of polling, no attempt is made once the budget is spent:
   * after every attempt but the last, the trailing error run is under budget.
   */
  lemma NoAttemptAfterBudgetSpent(cfg: PollConfig, extract: Evaluation.PathOracle, ticks: seq<Tick>)
    ensures var r := PollFrom(cfg, extract, ticks, 0, 0);
      forall j :: 1 <= j < r.attempts ==> ErrorRun(ticks[..j]) < Budget(cfg.maxRetries)
  {
    var h: seq<Tick> := [];
    assert ErrorRun(h) == 0 && |h| == 0;
    ErrorCountIsErrorRun(cfg, extract, ticks, h);
    var r := PollFrom(cfg, extract, ticks, 0, 0);
    forall j | 1 <= j < r.attempts
      ensures ErrorRun(ticks[..j]) < Budget(cfg.maxRetries)
    {
      assert h + ticks[..j] == ticks[..j];
    }
  }

  /**
   * A run of errors only: fewer than `Budget(maxRetries)` in all keeps polling;
   * reaching it gives up on exactly that attempt.
   */
  lemma {:induction false} ErrorsOnly(cfg: PollConfig, extract: Evaluation.PathOracle, ticks: seq<Tick>, e: nat, a: nat)
    requires forall k :: 0 <= k < |ticks| ==> IsErrorTick(ticks[k])
    requires e < Budget(cfg.maxRetries)
    ensures e + |ticks| < Budget(cfg.maxRetries) ==>
      PollFrom(cfg, extract, ticks, e, a) == PollRun(StillPolling, e + |ticks|, a + |ticks|)
    ensures e + |ticks| >= Budget(cfg.maxRetries) ==>
      PollFrom(cfg, extract, ticks, e, a) == PollRun(RetriesExhausted, Budget(cfg.maxRetries), a + Budget(cfg.maxRetries) - e)
    decreases |ticks|
  {
    if |ticks| > 0 && e + 1 <= cfg.maxRetries {
      ErrorsOnly(cfg, extract, ticks[1..], e + 1, a + 1);
    }
  }

  /** `status.interval` when it is not configured, in milliseconds. */
  const DefaultInterval: int := 1000

  /**
   * The poll settings `checkStatus` reads: `status.max-retries` (default 3),
   * `status.failEval` (default empty) and the required `status.successEval`.
   */
  function StatusPollConfig(p: Props): (cfg: PollConfig)
    requires StatusPrefix + SuccessEvalKey in p.strings
    ensures StatusMaxRetriesKey !in p.ints ==> cfg.maxRetries == DefaultMaxRetries
    ensures StatusMaxRetriesKey in p.ints ==> cfg.maxRetries == p.ints[StatusMaxRetriesKey]
    ensures cfg.failEval == GetString(p, StatusPrefix + FailEvalKey, "")
    ensures cfg.successEval == p.strings[StatusPrefix + SuccessEvalKey]
  {
    PollConfig(GetInt(p, StatusMaxRetriesKey, DefaultMaxRetries),
               GetString(p, StatusPrefix + FailEvalKey, ""),
               p.strings[StatusPrefix + SuccessEvalKey])
  }

  /**
   * The loop's first iteration gets past the cancel check and sleeps for a
   * negative `status.interval`, which `Thread.sleep` rejects with an exception
   * the loop does not catch.
   */
  predicate SleepThrows(p: Props, ticks: seq<Tick>)
  {
    GetInt(p, StatusIntervalKey, DefaultInterval) < 0 && |ticks| > 0 && ticks[0].Attempted?
  }

  /**
   * The sleep sits between the loop's cancel check and its request: with a
   * negative `status.interval` it throws exactly when the loop, left to run,
   * would have made an attempt.
   */
  lemma SleepPrecedesFirstAttempt(p: Props, cfg: PollConfig, extract: Evaluation.PathOracle, ticks: seq<Tick>)
    requires GetInt(p, StatusIntervalKey, DefaultInterval) < 0
    ensures SleepThrows(p, ticks) <==> PollFrom(cfg, extract, ticks, 0, 0).attempts > 0
  {
    PollDecision(cfg, extract, ticks, 0, 0);
  }

  /**
   * `checkStatus`: `status.successEval` must be present and `status.failEval`
   * non-empty, checked in that order, then the status request is built; only
   * then does polling start, with `status.max-retries` (default 3) as budget.
   * A negative `status.interval` ends it with an error at the first attempt.
   */
  function CheckStatus(p: Props, extract: Evaluation.PathOracle, ticks: seq<Tick>): (r: Result<PollRun, ConfigError>)
    ensures StatusPrefix + SuccessEvalKey !in p.strings ==> r == Failure(MissingProperty(StatusPrefix + SuccessEvalKey))
    ensures StatusPrefix + SuccessEvalKey in p.strings && GetString(p, StatusPrefix + FailEvalKey, "") == "" ==>
      r == Failure(StatusFailEvalEmpty)
    ensures (r.Failure? && r.error != MissingProperty(StatusPrefix + SuccessEvalKey) && r.error != StatusFailEvalEmpty
             && !r.error.NegativeInterval?) ==>
      Requests.BuildRequest(p, StatusPrefix) == Failure(r.error)
    ensures (StatusPrefix + SuccessEvalKey in p.strings && GetString(p, StatusPrefix + FailEvalKey, "") != ""
             && Requests.BuildRequest(p, StatusPrefix).Failure?) ==>
      r == Failure(Requests.BuildRequest(p, StatusPrefix).error)
    ensures r.Failure? && r.error.NegativeInterval? ==>
      SleepThrows(p, ticks) && r.error.interval == GetInt(p, StatusIntervalKey, DefaultInterval)
    ensures r.Success? <==>
      && StatusPrefix + SuccessEvalKey in p.strings
      && GetString(p, StatusPrefix + FailEvalKey, "") != ""
      && Requests.BuildRequest(p, StatusPrefix).Success?
      && !SleepThrows(p, ticks)
    ensures r.Success? ==> r.value.attempts <= |ticks|
    ensures r.Success? ==>
      && Explains(StatusPollConfig(p), extract, ticks, r.value, 0)
      && CountTracksErrors(StatusPollConfig(p), ticks, [], r.value)
  {
    var maxRetries := GetInt(p, StatusMaxRetriesKey, DefaultMaxRetries);
    var failEval := GetString(p, StatusPrefix + FailEvalKey, "");
    var successEval :- RequireString(p, StatusPrefix + SuccessEvalKey);
    if failEval == "" then Failure(StatusFailEvalEmpty)
    else
      var _ :- Requests.BuildRequest(p, StatusPrefix);
      if SleepThrows(p, ticks) then Failure(NegativeInterval(GetInt(p, StatusIntervalKey, DefaultInterval)))
      else
        var cfg := PollConfig(maxRetries, failEval, successEval);
        assert cfg == StatusPollConfig(p);
        var h: seq<Tick> := [];
        assert ErrorRun(h) == 0 && |h| == 0;
        PollDecision(cfg, extract, ticks, 0, 0);
        ErrorCountIsErrorRun(cfg, extract, ticks, h);
        Success(PollFrom(cfg, extract, ticks, 0, 0))
  }
}

=== FILE: requests.dfy ===
/** Building the request descriptor for one phase (`""` for the primary call, `status.` for polling). */
module Requests {
  import opened Wrappers
  import opened Config
  import Strings
  import Headers

  datatype Method = Get | Post

  /** What is handed to the transport: method, URL, headers in block order, and the payload if any. */
  datatype Request = Request(verb: Method, url: string, headers: seq<Headers.Header>, body: Option<string>)

  /** The method property, compared case-sensitively with the two supported spellings. */
  function ParseMethod(name: string): (r: Result<Method, ConfigError>)
    ensures r.Success? <==> name == "GET" || name == "POST"
    ensures r.Success? ==> (r.value == Post <==> name == "POST")
    ensures r.Failure? ==> r.error == UnsupportedMethod(name)
  {
    if name == "POST" then Success(Post)
    else if name == "GET" then Success(Get)
    else Failure(UnsupportedMethod(name))
  }

  /** The method property of a phase; GET when absent. */
  function MethodName(p: Props, prefix: string): string
  {
    GetString(p, prefix + MethodKey, "GET")
  }

  /** The header block of a phase; empty when absent. */
  function HeaderBlock(p: Props, prefix: string): string
  {
    GetString(p, prefix + HeadersKey, "")
  }

  /**
   * `getHttpRequest(prefix)`. The URL is required and looked up first; the
   * method must be exactly GET or POST; a payload is attached only to a POST
   * whose body property is non-empty; the header block is parsed.
   */
  function BuildRequest(p: Props, prefix: string): (r: Result<Request, ConfigError>)
    ensures prefix + UrlKey !in p.strings ==> r == Failure(MissingProperty(prefix + UrlKey))
    ensures prefix + UrlKey in p.strings ==>
      (r.Success? <==> MethodName(p, prefix) == "GET" || MethodName(p, prefix) == "POST")
    ensures prefix + UrlKey in p.strings && r.Failure? ==> r.error == UnsupportedMethod(MethodName(p, prefix))
    ensures prefix + UrlKey in p.strings && prefix + MethodKey !in p.strings ==> r.Success? && r.value.verb == Get
    ensures r.Success? ==> r.value.url == p.strings[prefix + UrlKey]
    ensures r.Success? ==> (r.value.verb == Post <==> MethodName(p, prefix) == "POST")
    ensures r.Success? ==>
      (r.value.body.Some? <==> r.value.verb == Post && GetString(p, prefix + BodyKey, "") != "")
    ensures r.Success? && r.value.body.Some? ==> r.value.body.value == p.strings[prefix + BodyKey]
    ensures r.Success? && HeaderBlock(p, prefix) == "" ==> r.value.headers == []
    ensures r.Success? && HeaderBlock(p, prefix) != "" ==>
      Headers.Lines(r.value.headers) == Headers.WithColon(Strings.Split(HeaderBlock(p, prefix), Headers.Crlf))
  {
    var url :- RequireString(p, prefix + UrlKey);
    var verb :- ParseMethod(MethodName(p, prefix));
    var body := GetString(p, prefix + BodyKey, "");
    var headers := match Headers.ParseHeaders(HeaderBlock(p, prefix))
      case None => []
      case Some(hs) => hs;
    Headers.ParsedHeadersAreColonSegments(Strings.Split(HeaderBlock(p, prefix), Headers.Crlf));
    Success(Request(verb, url, headers, if verb == Post && body != "" then Some(body) else None))
  }

  /**
   * Every header of a built request has a name without a colon, so with its
   * line equal to a segment it was cut at that segment's first colon.
   */
  lemma HeaderNamesHaveNoColon(p: Props, prefix: string)
    requires BuildRequest(p, prefix).Success?
    ensures forall i :: 0 <= i < |BuildRequest(p, prefix).value.headers| ==> ':' !in BuildRequest(p, prefix).value.headers[i].name
  {
  }
}

=== FILE: scenarios.dfy ===
/** Concrete runs of the model, with a JSONPath engine that knows one body and one filter. */
module Scenarios {
  import opened Wrappers
  import opened Config
  import Evaluation
  import Executor
  import Strings
  import Headers
  import Requests
  import Poller
  import Job

  const Done: string := "{\"code\":1}"
  const CodeIsOne: string := "$[?(@.code==1)]"
  const CodeIsTwo: string := "$[?(@.code==2)]"

  /** The filter `CodeIsOne` selects one element of `Done` and nothing of any other body; every other expression selects nothing. */
  function Filter(content: Option<string>, expr: string): Evaluation.Extracted
  {
    if content == Some(Done) && expr == CodeIsOne then Evaluation.Collection(1) else Evaluation.Collection(0)
  }

  /** Neither filter contains a comma, so each is a one-entry list. */
  lemma NoCommas()
    ensures ',' !in CodeIsOne && ',' !in CodeIsTwo
  {
  }

  /** `Done` is selected by `CodeIsOne` and not by `CodeIsTwo`. */
  lemma DoneMatches()
    ensures Evaluation.Matches(Filter, Some(Done), CodeIsOne)
    ensures !Evaluation.Matches(Filter, Some(Done), CodeIsTwo)
  {
    NoCommas();
    Evaluation.SingleExpression(Filter, Some(Done), CodeIsOne);
    Evaluation.SingleExpression(Filter, Some(Done), CodeIsTwo);
  }

  /** A JSONPath engine for which every expression extracts a plain value from every body. */
  function AnyValue(content: Option<string>, expr: string): Evaluation.Extracted
  {
    Evaluation.Scalar
  }

  /**
   * `A,B` and `B,A` can disagree when A is empty: with B = " ", the list ", "
   * keeps the two blank entries "" and " " and skips both, while " ," loses its
   * trailing empty piece and keeps the single entry " ", which is tested as it is.
   */
  lemma EmptyFirstExpressionDoesNotCommute()
    ensures !Evaluation.Matches(AnyValue, None, "" + "," + " ")
    ensures Evaluation.Matches(AnyValue, None, " " + "," + "")
  {
    var d := Evaluation.ExpressionDelimiter;
    assert Strings.Join(["", " "], d) == "" + "," + " ";
    Strings.SplitJoin(["", " "], d);
    assert Strings.Join([" ", ""], d) == " " + "," + "";
    Strings.PiecesJoin([" ", ""], d);
    assert Strings.Split(" " + "," + "", d) == [" "];
    assert Strings.IsBlank("") && Strings.IsBlank(" ");
  }

  /** `Ok(content)` is an attempt answered with status 200 and that body. */
  function Ok(content: string): Poller.Tick
  {
    Poller.Attempted(Executor.Replied(Executor.Response(200, Some(content))))
  }

  /** Two transport faults, then a body the success expression selects: success on the third attempt. */
  lemma PollSucceedsAfterTwoFaults()
    ensures var cfg := Poller.PollConfig(Poller.DefaultMaxRetries, CodeIsTwo, CodeIsOne);
      Poller.PollFrom(cfg, Filter, [Poller.Attempted(Executor.Fault), Poller.Attempted(Executor.Fault), Ok(Done)], 0, 0)
        == Poller.PollRun(Poller.SuccessMatched, 2, 3)
  {
    var cfg := Poller.PollConfig(Poller.DefaultMaxRetries, CodeIsTwo, CodeIsOne);
    var f := Poller.Attempted(Executor.Fault);
    var ticks := [f, f, Ok(Done)];
    DoneMatches();
    assert ticks[1..] == [f, Ok(Done)] && ticks[1..][1..] == [Ok(Done)];
    assert Poller.PollFrom(cfg, Filter, ticks[1..][1..], 2, 2) == Poller.PollRun(Poller.SuccessMatched, 2, 3);
    assert Poller.PollFrom(cfg, Filter, ticks[1..], 1, 1) == Poller.PollFrom(cfg, Filter, ticks[1..][1..], 2, 2);
    assert Poller.PollFrom(cfg, Filter, ticks, 0, 0) == Poller.PollFrom(cfg, Filter, ticks[1..], 1, 1);
  }

  /** A body that both expressions select ends polling as failed on the first attempt. */
  lemma FailMatchWinsOnFirstAttempt(rest: seq<Poller.Tick>)
    ensures var cfg := Poller.PollConfig(Poller.DefaultMaxRetries, CodeIsOne, CodeIsOne);
      Poller.PollFrom(cfg, Filter, [Ok(Done)] + rest, 0, 0) == Poller.PollRun(Poller.FailMatched, 0, 1)
  {
    var cfg := Poller.PollConfig(Poller.DefaultMaxRetries, CodeIsOne, CodeIsOne);
    var ticks := [Ok(Done)] + rest;
    DoneMatches();
    assert ticks[0] == Ok(Done);
    assert !Executor.IsFailure(ticks[0].attempt);
    assert Poller.FailMatch(cfg, Filter, ticks[0].attempt.response);
  }

  /** A status phase with a URL and both expressions and nothing else: no method, interval or retry count. */
  function StatusProps(): Props
  {
    Props(map[StatusPrefix + UrlKey := "http://localhost/dmp/checkJobStatus",
              StatusPrefix + SuccessEvalKey := CodeIsOne,
              StatusPrefix + FailEvalKey := CodeIsTwo], map[])
  }

  /** `StatusProps` passes every check `checkStatus` makes before it polls. */
  lemma StatusPropsValid()
    ensures StatusPrefix + SuccessEvalKey in StatusProps().strings
    ensures GetString(StatusProps(), StatusPrefix + FailEvalKey, "") == CodeIsTwo
    ensures Requests.BuildRequest(StatusProps(), StatusPrefix).Success?
    ensures Poller.StatusPollConfig(StatusProps()) == Poller.PollConfig(Poller.DefaultMaxRetries, CodeIsTwo, CodeIsOne)
  {
    var p := StatusProps();
    assert (StatusPrefix + MethodKey)[7] == 'm' && (StatusPrefix + HeadersKey)[7] == 'h' && (StatusPrefix + BodyKey)[7] == 'b';
    assert (StatusPrefix + UrlKey)[7] == 'u' && (StatusPrefix + SuccessEvalKey)[7] == 's' && (StatusPrefix + FailEvalKey)[7] == 'f';
    assert Requests.MethodName(p, StatusPrefix) == "GET";
  }

  /**
   * With `status.max-retries` unset, the status phase allows three retries:
   * three transport faults keep polling and a fourth gives up.
   */
  lemma FourFaultsExhaustDefaultBudget()
    ensures var f := Poller.Attempted(Executor.Fault);
      && Poller.CheckStatus(StatusProps(), Filter, [f, f, f]) == Success(Poller.PollRun(Poller.StillPolling, 3, 3))
      && Poller.CheckStatus(StatusProps(), Filter, [f, f, f, f]) == Success(Poller.PollRun(Poller.RetriesExhausted, 4, 4))
  {
    var f := Poller.Attempted(Executor.Fault);
    var cfg := Poller.PollConfig(Poller.DefaultMaxRetries, CodeIsTwo, CodeIsOne);
    StatusPropsPoll([f, f, f]);
    StatusPropsPoll([f, f, f, f]);
    Poller.ErrorsOnly(cfg, Filter, [f, f, f], 0, 0);
    Poller.ErrorsOnly(cfg, Filter, [f, f, f, f], 0, 0);
  }

  /** `StatusProps` polls with three retries, `CodeIsTwo` as fail and `CodeIsOne` as success expression. */
  lemma StatusPropsPoll(ticks: seq<Poller.Tick>)
    ensures Poller.CheckStatus(StatusProps(), Filter, ticks)
      == Success(Poller.PollFrom(Poller.PollConfig(Poller.DefaultMaxRetries, CodeIsTwo, CodeIsOne), Filter, ticks, 0, 0))
  {
    StatusPropsValid();
    assert !Poller.SleepThrows(StatusProps(), ticks);
  }

  /**
   * The test's url, method and body, with its success expression: a POST job
   * with no header and no status phase.
   */
  function PostProps(): Props
  {
    Props(map[UrlKey := "http://localhost/dmp/pubJobReleaseTaskPlay", MethodKey := "POST",
              BodyKey := "IDS=202006200213804", SuccessEvalKey := CodeIsOne], map[])
  }

  /** The test's url, method and body build a POST request carrying that body. */
  lemma PostRequestBuilds()
    ensures Requests.BuildRequest(PostProps(), "").Success?
    ensures Requests.BuildRequest(PostProps(), "").value.verb == Requests.Post
    ensures Requests.BuildRequest(PostProps(), "").value.body == Some("IDS=202006200213804")
  {
    var p := PostProps();
    assert "" + UrlKey == UrlKey && "" + MethodKey == MethodKey && "" + BodyKey == BodyKey && "" + HeadersKey == HeadersKey;
    assert HeadersKey !in p.strings;
    assert Requests.MethodName(p, "") == "POST";
  }

  /** `PostProps` has no `status.url`, so the job ends after the primary call. */
  lemma NoStatusUrl()
    ensures StatusPrefix + UrlKey !in PostProps().strings
  {
    var k := StatusPrefix + UrlKey;
    assert |k| == 10;
    assert k[0] == 's';
  }

  /** A POST whose response the success expression selects, with no status URL: the job succeeds. */
  lemma PostJobSucceeds(ticks: seq<Poller.Tick>)
    ensures Job.Run(PostProps(), Filter, Executor.Replied(Executor.Response(200, Some(Done))), ticks) == Job.Succeeded
  {
    var p := PostProps();
    PostRequestBuilds();
    NoStatusUrl();
    PostVerdict();
    assert !Executor.IsErrorStatus(200);
    assert Job.PrimaryPassed(p, Filter, Executor.Replied(Executor.Response(200, Some(Done))));
  }

  /** With no fail expression and `CodeIsOne` as the success expression, the body `Done` passes. */
  lemma PostVerdict()
    ensures Job.PrimaryVerdict(PostProps(), Filter, Some(Done))
  {
    PostPropsExpressions();
    DoneMatches();
    assert Executor.Verdict(Filter, Some(Done), "", CodeIsOne);
  }

  /** `PostProps` has no fail expression and `CodeIsOne` as success expression. */
  lemma PostPropsExpressions()
    ensures GetString(PostProps(), FailEvalKey, "") == ""
    ensures GetString(PostProps(), SuccessEvalKey, "") == CodeIsOne
  {
    var p := PostProps();
    assert FailEvalKey !in p.strings;
  }

  /**
   * The test job's whole configuration: the POST call with its header and
   * success expression, and a status phase with a URL, a success expression
   * and a 500 ms interval, but no `status.failEval`.
   */
  function TestJobProps(): Props
  {
    Props(map[UrlKey := "http://localhost/dmp/pubJobReleaseTaskPlay", MethodKey := "POST",
              BodyKey := "IDS=202006200213804",
              HeadersKey := "Content-Type: application/x-www-form-urlencoded; charset=utf-8",
              SuccessEvalKey := CodeIsOne,
              StatusPrefix + UrlKey := "http://localhost/dmp/checkJobStatus",
              StatusPrefix + SuccessEvalKey := CodeIsOne,
              StatusIntervalKey := "500"],
          map[StatusIntervalKey := 500])
  }

  /** The test job's status phase has a URL and a success expression but no fail expression. */
  lemma TestJobStatusKeys()
    ensures StatusPrefix + UrlKey in TestJobProps().strings
    ensures StatusPrefix + SuccessEvalKey in TestJobProps().strings
    ensures GetString(TestJobProps(), StatusPrefix + FailEvalKey, "") == ""
  {
    var k := StatusPrefix + FailEvalKey;
    assert |k| == 15 && k[7] == 'f';
    assert StatusIntervalKey[7] == 'i';
  }

  /**
   * The test job can never succeed: whenever its primary call passes, the
   * status phase finds `status.failEval` empty and fails the job as
   * misconfigured before any status request, whatever the network does.
   */
  lemma TestJobNeverSucceeds(primary: Executor.Attempt, ticks: seq<Poller.Tick>)
    ensures Job.Run(TestJobProps(), Filter, primary, ticks) != Job.Succeeded
    ensures Job.PrimaryPassed(TestJobProps(), Filter, primary) ==>
      Job.Run(TestJobProps(), Filter, primary, ticks) == Job.Failed(Job.Misconfigured(StatusFailEvalEmpty))
  {
    TestJobStatusKeys();
    if Job.PrimaryPassed(TestJobProps(), Filter, primary) {
      Job.EmptyStatusFailEvalFailsBeforePolling(TestJobProps(), Filter, primary, ticks, ticks);
    }
  }

  /** A header line is split at its first colon; the value keeps its leading space and later colons. */
  lemma HostHeader()
    ensures Headers.ParseHeaders("Host" + ":" + " localhost:8080") == Some([Headers.Header("Host", " localhost:8080")])
  {
    assert ':' !in "Host" && '\r' !in "Host";
    assert '\r' !in " localhost:8080";
    Headers.OneLine("Host", " localhost:8080");
  }
}

=== FILE: strings.dfy ===
/**
 * The few `java.lang.String` operations the job relies on: `indexOf`, `split`
 * with a literal delimiter and `trim`, stated over `seq<char>`.
 */
module Strings {
  import opened Wrappers

  /** `d` occurs in `s` starting at index `i`. */
  predicate OccursAt(s: string, d: string, i: nat)
  {
    i + |d| <= |s| && s[i..i + |d|] == d
  }

  /** Dropping the first character shifts every occurrence one place to the left. */
  lemma OccursAtTail(s: string, d: string)
    requires |s| > 0
    ensures forall j: nat {:trigger OccursAt(s, d, j)} :: 1 <= j ==> (OccursAt(s, d, j) <==> OccursAt(s[1..], d, j - 1))
  {
    forall j: nat | 1 <= j
      ensures OccursAt(s, d, j) <==> OccursAt(s[1..], d, j - 1)
    {
      if j + |d| <= |s| {
        assert s[1..][j - 1..j - 1 + |d|] == s[j..j + |d|];
      }
    }
  }

  /** `s.indexOf(d)`: the first index at which `d` occurs, `None` for Java's -1. */
  function IndexOf(s: string, d: string): (r: Option<nat>)
    requires |d| > 0
    ensures r.Some? ==> OccursAt(s, d, r.value)
    ensures r.Some? ==> forall j: nat :: j < r.value ==> !OccursAt(s, d, j)
    ensures r.None? ==> forall j: nat :: !OccursAt(s, d, j)
    decreases |s|
  {
    if |s| < |d| then None
    else if s[..|d|] == d then Some(0)
    else
      OccursAtTail(s, d);
      match IndexOf(s[1..], d)
      case None => None
      case Some(i) => Some(i + 1)
  }

  /** A string that lacks the delimiter's first character does not contain the delimiter. */
  lemma IndexOfAbsent(s: string, d: string)
    requires |d| > 0 && d[0] !in s
    ensures IndexOf(s, d) == None
  {
    forall j: nat | j + |d| <= |s|
      ensures !OccursAt(s, d, j)
    {
      assert s[j..j + |d|][0] == s[j] != d[0];
    }
  }

  /** A one-character string occurs exactly where that character stands. */
  lemma OccursAtChar(s: string, c: char)
    ensures forall j: nat :: OccursAt(s, [c], j) <==> j < |s| && s[j] == c
  {
    forall j: nat | j < |s|
      ensures s[j..j + 1] == [s[j]]
    {
    }
  }

  /** For a one-character delimiter, `indexOf` finds the first position holding that character. */
  lemma IndexOfChar(s: string, c: char)
    ensures IndexOf(s, [c]).None? <==> c !in s
    ensures IndexOf(s, [c]).Some? ==> var i := IndexOf(s, [c]).value; i < |s| && s[i] == c && c !in s[..i]
  {
    OccursAtChar(s, c);
    match IndexOf(s, [c])
    case None =>
    case Some(i) =>
      assert forall k :: 0 <= k < i ==> s[..i][k] == s[k];
  }

  /** The first occurrence of `d` in `x + d + y` is the one right after `x` when `x` lacks `d[0]`. */
  lemma IndexOfAfter(x: string, d: string, y: string)
    requires |d| > 0 && d[0] !in x
    ensures IndexOf(x + d + y, d) == Some(|x|)
  {
    var s := x + d + y;
    assert s[|x|..|x| + |d|] == d;
    assert OccursAt(s, d, |x|);
    forall j: nat | j < |x|
      ensures !OccursAt(s, d, j)
    {
      assert s[j..j + |d|][0] == s[j] == x[j] != d[0];
    }
  }

  /** Splitting `x + d + y`, where `x` lacks `d[0]`, yields `x` and then the pieces of `y`. */
  lemma PiecesAfter(x: string, d: string, y: string)
    requires |d| > 0 && d[0] !in x
    ensures Pieces(x + d + y, d) == [x] + Pieces(y, d)
  {
    var s := x + d + y;
    IndexOfAfter(x, d, y);
    assert s[..|x|] == x;
    assert s[|x| + |d|..] == y;
  }

  /** Every piece between consecutive occurrences of `d`, left to right, without dropping any. */
  function Pieces(s: string, d: string): (parts: seq<string>)
    requires |d| > 0
    ensures |parts| >= 1
    ensures |parts| == 1 <==> IndexOf(s, d).None?
    decreases |s|
  {
    match IndexOf(s, d)
    case None => [s]
    case Some(i) => [s[..i]] + Pieces(s[i + |d|..], d)
  }

  /** The pieces joined back with `d` between them. */
  function Join(parts: seq<string>, d: string): string
  {
    if |parts| == 0 then ""
    else if |parts| == 1 then parts[0]
    else parts[0] + d + Join(parts[1..], d)
  }

  /** Splitting loses nothing: joining the pieces restores the input. */
  lemma {:induction false} JoinPieces(s: string, d: string)
    requires |d| > 0
    ensures Join(Pieces(s, d), d) == s
    decreases |s|
  {
    match IndexOf(s, d)
    case None =>
    case Some(i) =>
      var tail := s[i + |d|..];
      var rest := Pieces(tail, d);
      assert Pieces(s, d) == [s[..i]] + rest;
      JoinCons(s[..i], rest, d);
      JoinPieces(tail, d);
      SplitAround(s, i, d);
  }

  /** Joining a first piece in front of a non-empty list puts one delimiter between them. */
  lemma JoinCons(x: string, rest: seq<string>, d: string)
    requires |rest| >= 1
    ensures Join([x] + rest, d) == x + d + Join(rest, d)
  {
    assert ([x] + rest)[1..] == rest;
  }

  /** A string is the part before an occurrence of `d`, then `d`, then the part after it. */
  lemma SplitAround(s: string, i: nat, d: string)
    requires OccursAt(s, d, i)
    ensures s == s[..i] + d + s[i + |d|..]
  {
    assert s == s[..i] + s[i..i + |d|] + s[i + |d|..];
  }

  /** A join begins with its first piece. */
  lemma JoinStartsWithFirst(parts: seq<string>, d: string)
    requires |parts| > 0
    ensures parts[0] <= Join(parts, d)
  {
  }

  /** Joining pieces that lack `d[0]` and splitting again gives the same pieces back. */
  lemma {:induction false} PiecesJoin(parts: seq<string>, d: string)
    requires |d| > 0 && |parts| >= 1
    requires forall k :: 0 <= k < |parts| ==> d[0] !in parts[k]
    ensures Pieces(Join(parts, d), d) == parts
    decreases |parts|
  {
    if |parts| == 1 {
      IndexOfAbsent(parts[0], d);
    } else {
      PiecesAfter(parts[0], d, Join(parts[1..], d));
      PiecesJoin(parts[1..], d);
      assert parts == [parts[0]] + parts[1..];
    }
  }

  /** Trailing empty strings removed, as `split` does when its limit is zero. */
  function DropTrailingEmpty(parts: seq<string>): (r: seq<string>)
    ensures r <= parts
    ensures |r| > 0 ==> r[|r| - 1] != ""
    ensures forall k :: |r| <= k < |parts| ==> parts[k] == ""
    decreases |parts|
  {
    if |parts| > 0 && parts[|parts| - 1] == "" then DropTrailingEmpty(parts[..|parts| - 1])
    else parts
  }

  /**
   * `s.split(d)` for a delimiter with no regular-expression meaning: the input
   * itself when `d` never occurs, otherwise the pieces with the trailing empty
   * ones removed.
   */
  function Split(s: string, d: string): (parts: seq<string>)
    requires |d| > 0
    ensures parts <= Pieces(s, d)
    ensures IndexOf(s, d).None? ==> parts == [s]
    ensures IndexOf(s, d).Some? && |parts| > 0 ==> parts[|parts| - 1] != ""
    ensures forall k :: |parts| <= k < |Pieces(s, d)| ==> Pieces(s, d)[k] == ""
  {
    var all := Pieces(s, d);
    if |all| == 1 then all else DropTrailingEmpty(all)
  }

  /** Splitting the join of pieces that lack `d[0]` and do not end in an empty piece gives them back. */
  lemma SplitJoin(parts: seq<string>, d: string)
    requires |d| > 0 && |parts| >= 1
    requires forall k :: 0 <= k < |parts| ==> d[0] !in parts[k]
    requires |parts| == 1 || parts[|parts| - 1] != ""
    ensures Split(Join(parts, d), d) == parts
  {
    PiecesJoin(parts, d);
  }

  /** Every character is at most U+0020, the set `String.trim` strips. */
  predicate IsBlank(s: string)
  {
    forall i :: 0 <= i < |s| ==> s[i] <= ' '
  }

  /** How many characters at the start of `s` are at most U+0020. */
  function LeadingBlanks(s: string): (n: nat)
    ensures n <= |s| && IsBlank(s[..n])
    ensures n < |s| ==> s[n] > ' '
    decreases |s|
  {
    if |s| > 0 && s[0] <= ' ' then
      var n := LeadingBlanks(s[1..]);
      assert s[..n + 1] == [s[0]] + s[1..][..n];
      n + 1
    else 0
  }

  /** `s` without its leading characters up to U+0020. */
  function TrimStart(s: string): (r: string)
    ensures r == "" <==> IsBlank(s)
    ensures r == s[LeadingBlanks(s)..]
    decreases |s|
  {
    if |s| > 0 && s[0] <= ' ' then
      assert s[1..][LeadingBlanks(s[1..])..] == s[LeadingBlanks(s[1..]) + 1..];
      TrimStart(s[1..])
    else s
  }

  /** `s` without its trailing characters up to U+0020. */
  function TrimEnd(s: string): (r: string)
    ensures r == "" <==> IsBlank(s)
    ensures r != "" ==> r[|r| - 1] > ' '
    ensures |r| <= |s| && r == s[..|r|] && IsBlank(s[|r|..])
    decreases |s|
  {
    if |s| > 0 && s[|s| - 1] <= ' ' then
      var r := TrimEnd(s[..|s| - 1]);
      assert s[|r|..] == s[..|s| - 1][|r|..] + [s[|s| - 1]];
      r
    else s
  }

  /**
   * `s.trim()`: the slice of `s` that starts after its leading characters up
   * to U+0020 and leaves only such characters after it.
   */
  function Trim(s: string): (r: string)
    ensures r == "" <==> IsBlank(s)
    ensures r != "" ==> r[0] > ' ' && r[|r| - 1] > ' '
    ensures var i := LeadingBlanks(s); i + |r| <= |s| && r == s[i..i + |r|] && IsBlank(s[i + |r|..])
  {
    var t := TrimStart(s);
    var r := TrimEnd(t);
    var i := LeadingBlanks(s);
    assert t[|r|..] == s[i + |r|..];
    r
  }
}

=== FILE: timeouts.dfy ===
/**
 * Timeout resolution for one phase: each specific timeout falls back to the
 * phase's generic `timeout`, which has its own default per phase.
 */
module Timeouts {
  import opened Config

  const PrimaryDefaultTimeout: int := 3000
  const StatusDefaultTimeout: int := 30000

  /** Connection-request, connect and socket timeouts in milliseconds. */
  datatype Resolved = Resolved(connectionRequest: int, connect: int, socket: int)

  /**
   * Because the socket-timeout key is spelled like the connection-timeout
   * key, the socket timeout always equals the connect timeout.
   */
  function Resolve(p: Props, prefix: string, fallback: int): (t: Resolved)
    ensures t.socket == t.connect
  {
    var generic := GetInt(p, prefix + TimeoutKey, fallback);
    Resolved(
      GetInt(p, prefix + RequestTimeoutKey, generic),
      GetInt(p, prefix + ConnectionTimeoutKey, generic),
      GetInt(p, prefix + SocketTimeoutKey, generic))
  }

  function PrimaryTimeouts(p: Props): Resolved
  {
    Resolve(p, "", PrimaryDefaultTimeout)
  }

  function StatusTimeouts(p: Props): Resolved
  {
    Resolve(p, StatusPrefix, StatusDefaultTimeout)
  }

  /** `p` with one integer property set. */
  function WithInt(p: Props, key: string, v: int): Props
  {
    Props(p.strings, p.ints[key := v])
  }

  /** With no integer properties, every timeout is the phase default: 3000 ms primary, 30000 ms status. */
  lemma Defaults(p: Props)
    requires p.ints == map[]
    ensures PrimaryTimeouts(p) == Resolved(3000, 3000, 3000)
    ensures StatusTimeouts(p) == Resolved(30000, 30000, 30000)
  {
  }

  /** The generic timeout, alone, sets all three. */
  lemma GenericFallback(p: Props, prefix: string, fallback: int, v: int)
    requires prefix + RequestTimeoutKey !in p.ints && prefix + ConnectionTimeoutKey !in p.ints
    ensures Resolve(WithInt(p, prefix + TimeoutKey, v), prefix, fallback) == Resolved(v, v, v)
  {
    var q := WithInt(p, prefix + TimeoutKey, v);
    assert |prefix + RequestTimeoutKey| != |prefix + TimeoutKey|;
    assert |prefix + ConnectionTimeoutKey| != |prefix + TimeoutKey|;
  }

  /** A request timeout overrides only the connection-request timeout. */
  lemma RequestTimeoutOverrides(p: Props, prefix: string, fallback: int, v: int)
    ensures var t := Resolve(p, prefix, fallback);
      Resolve(WithInt(p, prefix + RequestTimeoutKey, v), prefix, fallback) == t.(connectionRequest := v)
  {
    assert |prefix + RequestTimeoutKey| != |prefix + TimeoutKey|;
    assert |prefix + RequestTimeoutKey| != |prefix + ConnectionTimeoutKey|;
  }

  /** A connection timeout sets both the connect and the socket timeout. */
  lemma ConnectionTimeoutSetsSocket(p: Props, prefix: string, fallback: int, v: int)
    ensures var t := Resolve(p, prefix, fallback);
      Resolve(WithInt(p, prefix + ConnectionTimeoutKey, v), prefix, fallback) == t.(connect := v, socket := v)
  {
    assert |prefix + ConnectionTimeoutKey| != |prefix + TimeoutKey|;
    assert |prefix + ConnectionTimeoutKey| != |prefix + RequestTimeoutKey|;
  }

  /** A property spelled `socketTimeout` is never read. */
  lemma SocketTimeoutSpellingIgnored(p: Props, prefix: string, fallback: int, v: int)
    ensures Resolve(WithInt(p, prefix + "socketTimeout", v), prefix, fallback) == Resolve(p, prefix, fallback)
  {
    assert |prefix + "socketTimeout"| != |prefix + TimeoutKey|;
    assert |prefix + "socketTimeout"| != |prefix + RequestTimeoutKey|;
    assert |prefix + "socketTimeout"| != |prefix + ConnectionTimeoutKey|;
  }

  /** Status-phase keys never change the primary call's timeouts. */
  lemma StatusKeysLeavePrimaryAlone(p: Props, key: string, v: int)
    requires |key| >= |StatusPrefix| && key[..|StatusPrefix|] == StatusPrefix
    ensures PrimaryTimeouts(WithInt(p, key, v)) == PrimaryTimeouts(p)
  {
    assert key[0] == 's';
    assert ("" + TimeoutKey)[0] == 't';
    assert ("" + RequestTimeoutKey)[0] == 'r';
    assert ("" + ConnectionTimeoutKey)[0] == 'c';
  }
}

=== FILE: wrappers.dfy ===
/** Optional values and error-carrying results, usable with `:-`. */
module Wrappers {

  /** A value that may be absent (Java's `null`). */
  datatype Option<+T> = None | Some(value: T)

  /** Either a value or the error that prevented computing it (Java's thrown exception). */
  datatype Result<+T, +E> = Success(value: T) | Failure(error: E) {

    predicate IsFailure() {
      Failure?
    }

    function PropagateFailure<U>(): Result<U, E>
      requires Failure?
    {
      Failure(error)
    }

    function Extract(): T
      requires Success?
    {
      value
    }
  }
}
